=== FILE: README.md ===
# Janta Electricals storefront: route handlers, slug normalizer and admin session

A Dafny model of the server side of a small Next.js storefront backed by a
hosted database and object store. It covers:

- `generateSlug`, the five-stage slug normalizer that the category and the
  product admin routes each carry a copy of (module `Slug`);
- the admin category routes `GET`/`POST`/`PUT`/`DELETE` (`CategoriesRoute`),
  the admin product routes `GET`/`POST`/`DELETE` (`ProductsRoute`), the image
  association routes `POST`/`DELETE` (`ProductImagesRoute`) and the image
  upload route (`UploadRoute`);
- the public product listing with its optional `?category=slug` filter
  (`PublicProductsRoute`);
- the admin login and change-password routes (`LoginRoute`,
  `ChangePasswordRoute`) and the middleware that gates the admin pages on the
  `admin_session` cookie (`Middleware`), tied together as a state machine over
  (credential rows, browser cookie jar) in `AdminSession`.

Every route handler is a pure function from the decoded request and the
replies of the store to a `Handled` value: the HTTP response (status, JSON
body, at most one `Set-Cookie`) and the ordered list of store calls the
handler made, each with exactly the values it sends. "Validated before the
store is touched" is then an empty call list, and "what is written" is the
write call in it. The store's replies (`Done(rows)` or `Failed`,
`Accepted` or `Rejected`) are inputs, so every error path of every route is
reachable in the model.

JSON fields are JavaScript values (`JsValues.Value`) with JavaScript
truthiness, because the routes validate with `!x`. Where a truthy
non-string reaches `.trim()`, `.toLowerCase()`, `.split()` or bcrypt, the
JavaScript call throws and the route's `catch` answers 500 "Server error";
the model has that branch. A body that cannot be decoded
(`req.json()`/`req.formData()` throwing) is `Parsed.Malformed` and gets the
same 500.

`bcrypt.compare` and `bcrypt.hash` are the two functions of a
`PasswordHasher` value passed in; `uuidv4()` is an `id` parameter; the
storage's `getPublicUrl` is a function parameter.

Some checks a storefront would be expected to make are absent from the
code, and the model keeps their absence:

- create does not refuse a name whose slug is empty: the code checks the
  trimmed raw name's length only, so "!!" is inserted with the empty slug
  (`CategoriesRoute.PunctuationNameInserted`);
- product create does not check that the price is non-negative: it only
  refuses a falsy price, so 0 is refused and -5 is inserted
  (`ProductsRoute.ZeroPriceRefused`, `ProductsRoute.NegativePriceInserted`);
- update and delete have no not-found branch: they report success whenever
  the store reports no error (`CategoriesRoute.Update`, `Http.DeleteByParam`);
- nothing in the route refuses a trailing-space duplicate such as
  "Coolers ": a conflict can come only from the store's uniqueness
  constraint, and what the model shows is that both names send the same
  name and slug (`CategoriesRoute.TrailingSpaceSameRow`).

The middleware tests the textual prefix "/admin". The admin API routes live
under "/api/admin", so the middleware never looks at them
(`Middleware.AdminApiNotGated`): the session cookie guards the admin pages,
not the routes that write the catalogue.

## Model

| member | source | states |
|---|---|---|
| `Slug.LowerCharCases` | src/app/api/admin/categories/route.ts:13 | `toLowerCase` of one ASCII character (`Slug.LowerChar`): the result is never a capital, a capital becomes the same letter in lower case, and every other character is kept |
| `Slug.Lower` | src/app/api/admin/categories/route.ts:13 | `toLowerCase`: the same length, each capital replaced by its lower-case letter (32 code points down), and every character that is not a capital kept in place |
| `Slug.DropRun` | src/app/api/admin/categories/route.ts:14 | the leading whitespace removal of `trim`: a suffix of the input, only class characters removed, and the rest does not start with one |
| `Slug.TrimEnd` | src/app/api/admin/categories/route.ts:14 | the trailing whitespace removal of `trim`: a prefix of the input, only whitespace removed, and the rest does not end in whitespace |
| `Slug.Trim` | src/app/api/admin/categories/route.ts:14 | the trimmed string is no longer than the input and is empty or has non-whitespace at both ends |
| `Slug.TrimRemovesSurroundingSpace` | src/app/api/admin/categories/route.ts:14 | `trim` returns a slice of its input with only whitespace before it and only whitespace after it |
| `Slug.DropDisallowed` | src/app/api/admin/categories/route.ts:15 | after `replace(/[^a-z0-9\s-]/g, "")` every character is a letter, digit, whitespace or `-` that was in the input |
| `Slug.DropDisallowedKeepsAllowed` | src/app/api/admin/categories/route.ts:15 | the filter keeps exactly the allowed characters: it is a subsequence of its input and holds each allowed character as often as the input does |
| `Slug.DropDisallowedAppend` | src/app/api/admin/categories/route.ts:15 | the filter works character by character: filtering a concatenation concatenates the filtered parts |
| `Slug.CollapseRuns` | src/app/api/admin/categories/route.ts:16-17 | each run of whitespace (or of `-`) becomes one `-`: no class character other than `-` remains, the first character is kept or becomes `-`, and after the hyphen pass no two `-` are adjacent |
| `Slug.DropRunKeepsUntouched` | src/app/api/admin/categories/route.ts:16-17 | removing a run of the class keeps every character outside the class other than `-`, in order |
| `Slug.CollapseRunsKeepsUntouched` | src/app/api/admin/categories/route.ts:16-17 | a run pass keeps every character outside its class other than `-`, all of them and in order |
| `Slug.DropRunConcat` | src/app/api/admin/categories/route.ts:14 | the leading run of a concatenation is that of its first part, continued into the second part when the first part is all run |
| `Slug.CollapseRunsKeepsPrefix` | src/app/api/admin/categories/route.ts:16-17 | a prefix without class characters passes through a run pass unchanged |
| `Slug.CollapseRunThenOther` | src/app/api/admin/categories/route.ts:16-17 | a run followed by nothing or by a non-class character becomes a single `-` |
| `Slug.GenerateSlug` | src/app/api/admin/categories/route.ts:11-18 | a slug holds only `a`-`z`, `0`-`9` and `-`, hence no whitespace, and never two `-` in a row |
| `Slug.LowerFixesUncased` | src/app/api/admin/categories/route.ts:13 | lower-casing leaves a string without ASCII capitals unchanged |
| `Slug.DropDisallowedFixesAllowed` | src/app/api/admin/categories/route.ts:15 | the character filter leaves a string of allowed characters unchanged |
| `Slug.CollapseSpacesFixesSpaceless` | src/app/api/admin/categories/route.ts:16 | the whitespace pass leaves a string without whitespace unchanged |
| `Slug.CollapseHyphensFixesSingleHyphens` | src/app/api/admin/categories/route.ts:17 | the hyphen pass leaves a string without adjacent `-` unchanged |
| `Slug.TrimFixesPadded` | src/app/api/admin/categories/route.ts:14 | `trim` leaves a string that neither starts nor ends with whitespace unchanged |
| `Slug.FiltersFixSlugs` | src/app/api/admin/categories/route.ts:13-15 | lower-casing, trimming and the filter leave a slug-shaped string unchanged |
| `Slug.SlugFixesSlugs` | src/app/api/admin/categories/route.ts:11-18 | every slug-shaped string is its own slug |
| `Slug.SlugIdempotent` | src/app/api/admin/categories/route.ts:11-18 | `generateSlug(generateSlug(x)) == generateSlug(x)` |
| `Slug.SlugImage` | src/app/api/admin/categories/route.ts:11-18 | a string is some name's slug if and only if it is slug-shaped (slug characters, no double `-`) |
| `Slug.LowerIdempotent` | src/app/api/admin/categories/route.ts:13 | lower-casing twice is lower-casing once |
| `Slug.SlugIgnoresCase` | src/app/api/admin/categories/route.ts:13 | `generateSlug(lower(x)) == generateSlug(x)` |
| `Slug.LowerCommutesWithDropSpaces` | src/app/api/admin/categories/route.ts:13-14 | dropping leading whitespace commutes with lower-casing |
| `Slug.LowerCommutesWithTrimEnd` | src/app/api/admin/categories/route.ts:13-14 | dropping trailing whitespace commutes with lower-casing |
| `Slug.TrimIdempotent` | src/app/api/admin/categories/route.ts:14 | trimming twice is trimming once |
| `Slug.TrimIgnoresTrailingSpace` | src/app/api/admin/categories/route.ts:14 | a whitespace character appended to a string is trimmed away again |
| `Slug.SlugIgnoresSurroundingSpace` | src/app/api/admin/categories/route.ts:13-14 | `generateSlug(trim(x)) == generateSlug(x)`, so "Coolers " and "Coolers" have one slug |
| `Slug.DropRunKeepsLettersAndDigits` | src/app/api/admin/categories/route.ts:14 | trimming removes no letter or digit |
| `Slug.TrimEndKeepsLettersAndDigits` | src/app/api/admin/categories/route.ts:14 | trimming the end removes no letter or digit |
| `Slug.DropDisallowedKeepsLettersAndDigits` | src/app/api/admin/categories/route.ts:15 | the character filter keeps every letter and digit, in order |
| `Slug.CollapseRunsKeepsLettersAndDigits` | src/app/api/admin/categories/route.ts:16-17 | the run-collapsing passes keep every letter and digit, in order |
| `Slug.SlugKeepsLettersAndDigits` | src/app/api/admin/categories/route.ts:11-18 | the slug's letters and digits are exactly those of the lower-cased name, in order |
| `Slug.JoinedFiltersFix` | src/app/api/admin/categories/route.ts:13-15 | lower-casing, trimming and the filter leave two slug-shaped words joined by whitespace unchanged |
| `Slug.SpacesBetweenSlugsCollapse` | src/app/api/admin/categories/route.ts:16 | the whitespace pass turns the whitespace between two slug-shaped words into one `-` and keeps the words |
| `Slug.SlugJoinsWords` | src/app/api/admin/categories/route.ts:11-18 | two slug-shaped words that do not end or start with `-`, joined by any whitespace run, have the slug word + "-" + word |
| `Slug.TrailingPunctuationLeavesHyphen` | src/app/api/admin/categories/route.ts:14-17 | a slug-shaped word, whitespace and then only disallowed characters have the slug word + "-": the trailing `-` survives |
| `Slug.PunctuationFiltered` | src/app/api/admin/categories/route.ts:13-15 | lower-casing and trimming keep trailing disallowed characters, and the filter then drops them, leaving the word and the whitespace |
| `Slug.SpaceRunLeavesHyphen` | src/app/api/admin/categories/route.ts:16-17 | the two run passes turn a slug-shaped word followed by whitespace into the word and one `-` |
| `Slug.DropDisallowedOfDisallowed` | src/app/api/admin/categories/route.ts:15 | a string with no allowed character is filtered to the empty string |
| `Slug.NothingAllowedEmptySlug` | src/app/api/admin/categories/route.ts:11-18 | a name none of whose lower-cased characters is allowed has the empty slug |
| `Slug.TrailingHyphenExample` | src/app/api/admin/categories/route.ts:14-16 | "a !" has the slug "a-": trimming precedes the filter, so a slug may end in `-` |
| `Slug.EdgeHyphensKept` | src/app/api/admin/categories/route.ts:11-18 | nothing strips `-` at the ends: "-a-" is its own slug |
| `Slug.EmptySlugExample` | src/app/api/admin/categories/route.ts:11-18 | "!!" has the empty slug |
| `JsValues.LengthOf` | src/app/api/admin/change-password/route.ts:23 | `.length` is defined exactly for strings and arrays, and for a string is its length in UTF-16 code units |
| `JsValues.Utf16Length` | src/app/api/admin/categories/route.ts:39 | the UTF-16 length lies between the number of characters and twice that, and equals it exactly when no character lies above U+FFFF |
| `JsValues.Utf16LengthOfChar` | src/app/api/admin/categories/route.ts:39 | one character has `.length` 1, or 2 when it lies above U+FFFF |
| `JsValues.Utf16LengthAppend` | src/app/api/admin/categories/route.ts:39 | the UTF-16 length of a concatenation is the sum of the lengths; with the one-character case this fixes every string's `.length` |
| `JsValues.Falsy` | src/app/api/admin/categories/route.ts:39 | `!v` holds exactly for undefined, null, false, 0 and the empty string |
| `JsValues.Or` | src/app/api/admin/products/route.ts:83 | `v \|\| fallback` is `v` when `v` is truthy and the fallback otherwise |
| `Records.FirstImageUrl` | src/app/api/admin/products/route.ts:52 | the image URL is present exactly when there is a first image with a non-empty URL, and is then that URL |
| `Http.DeleteByParam` | src/app/api/admin/categories/route.ts:74-105 | a missing or empty id is a 400 with no store call; otherwise one delete by that id, a store error is a 500 and anything else a success |
| `CategoriesRoute.NameAccepted` | src/app/api/admin/categories/route.ts:39 | the test is passed exactly by a string whose trim is at least 2 UTF-16 units long: a trim of one character is refused unless that character is above U+FFFF, and every non-string is refused |
| `CategoriesRoute.OneCharacterName` | src/app/api/admin/categories/route.ts:39 | a name that trims to a single character is refused unless that character lies above U+FFFF, where `length` counts 2 |
| `CategoriesRoute.List` | src/app/api/admin/categories/route.ts:21-32 | one select; a store error is a 500, otherwise the rows as returned |
| `CategoriesRoute.Create` | src/app/api/admin/categories/route.ts:35-71 | the store is called if and only if the name is a string whose trim has length at least 2; the one insert sends the trimmed name and the raw name's slug; a rejected name is a 400, a truthy non-string name a 500, an insert error a 400 |
| `CategoriesRoute.Update` | src/app/api/admin/categories/route.ts:108-143 | the store is called if and only if the id is truthy and the name passes the create test; the one update sends the id, trimmed name and re-derived slug; an update error is a 400, any other reply a success, with no not-found case |
| `CategoriesRoute.Delete` | src/app/api/admin/categories/route.ts:74-105 | missing id gives 400 with no call; one delete by id; a store error is exactly the 500 case |
| `CategoriesRoute.CreateValidatesFirst` | src/app/api/admin/categories/route.ts:39-44 | a rejected create makes no store call and its answer does not depend on the store |
| `CategoriesRoute.UpdateValidatesFirst` | src/app/api/admin/categories/route.ts:112-117 | a rejected update makes no store call and its answer does not depend on the store |
| `CategoriesRoute.RenameRederivesSlug` | src/app/api/admin/categories/route.ts:112-127 | for every name both routes accept, a rename writes the same name and slug that creating a category of that name would |
| `CategoriesRoute.PunctuationNameInserted` | src/app/api/admin/categories/route.ts:39-53 | a name like "!!" passes the length test on the raw name and is inserted with the empty slug |
| `CategoriesRoute.TrailingSpaceSameRow` | src/app/api/admin/categories/route.ts:46-53 | a name with a trailing space and the same name without it send identical inserts |
| `CategoriesRoute.SurrogatePairNameAccepted` | src/app/api/admin/categories/route.ts:112-117 | a one-character name above U+FFFF has `.length` 2 and is accepted by the update route |
| `ProductsRoute.FormatAdmin` | src/app/api/admin/products/route.ts:45-53 | one entry per row in the same order, with the row's columns, the category name or "", and the first image URL or null |
| `ProductsRoute.List` | src/app/api/admin/products/route.ts:22-62 | one select; a fetch error is a 500 with no product list, otherwise the formatted rows |
| `ProductsRoute.Create` | src/app/api/admin/products/route.ts:65-104 | the store is called if and only if name, price and category id are truthy and the name is a string; the insert sends the trimmed name, the slug, the description or "", the price and the category id; a missing field is a 400, an insert error a 400 |
| `ProductsRoute.Delete` | src/app/api/admin/products/route.ts:107-138 | missing id gives 400 with no call; one delete by id; a store error is exactly the 500 case |
| `ProductsRoute.CreateValidatesFirst` | src/app/api/admin/products/route.ts:69-74 | a create with a falsy required field makes no store call and does not depend on the store |
| `ProductsRoute.ZeroPriceRefused` | src/app/api/admin/products/route.ts:69-74 | a price of 0 is refused with 400 and no store call |
| `ProductsRoute.NegativePriceInserted` | src/app/api/admin/products/route.ts:69-86 | a negative price passes validation and is inserted as given |
| `ProductsRoute.SameSlugAsCategories` | src/app/api/admin/products/route.ts:12-19 | for every name the category route accepts, a product and a category created from it are written with the same name and slug |
| `PublicProductsRoute.WithSlug` | src/app/api/public/products/route.ts:20-24 | the categories whose slug matches, and no others; empty exactly when none matches |
| `PublicProductsRoute.WithSlugCounts` | src/app/api/public/products/route.ts:20-24 | each category with the slug is kept as often as it occurs in the table and no other category is kept |
| `PublicProductsRoute.WithSlugUnique` | src/app/api/public/products/route.ts:20-24 | when exactly one category has the slug, the lookup returns that category alone |
| `PublicProductsRoute.WithSlugAmbiguous` | src/app/api/public/products/route.ts:20-24 | when two categories have the slug, the lookup returns at least two rows |
| `PublicProductsRoute.ResolveCategory` | src/app/api/public/products/route.ts:14-27 | the category id is set exactly when a non-empty parameter names exactly one category with a non-empty id, and is then that category's id; a failed lookup leaves it null |
| `PublicProductsRoute.UniqueSlugResolves` | src/app/api/public/products/route.ts:17-26 | a non-empty slug naming exactly one category with a non-empty id resolves to that id |
| `PublicProductsRoute.AmbiguousSlugIgnored` | src/app/api/public/products/route.ts:20-26 | a slug shared by two categories makes `.single()` fail and resolves to no id |
| `PublicProductsRoute.OnlyCategory` | src/app/api/public/products/route.ts:42-44 | exactly the rows of that category, kept in their order |
| `PublicProductsRoute.OnlyCategoryCounts` | src/app/api/public/products/route.ts:42-44 | each row of the category is kept as often as it occurs, and no other row is kept |
| `PublicProductsRoute.Selected` | src/app/api/public/products/route.ts:42-44 | without a category id every row is listed; with one, each row of that category as often as it occurs and no other |
| `PublicProductsRoute.FormatPublic` | src/app/api/public/products/route.ts:55-63 | one entry per row in the same order, with the joined category and the first image URL or null |
| `PublicProductsRoute.List` | src/app/api/public/products/route.ts:12-72 | a slug lookup only for a non-empty parameter, then one product select with the resolved filter; a query error is a 500, otherwise the formatted selected rows |
| `PublicProductsRoute.NoParameterNoFilter` | src/app/api/public/products/route.ts:15-19 | with no or an empty parameter there is no lookup and every row is listed |
| `PublicProductsRoute.ResolvedSlugFilters` | src/app/api/public/products/route.ts:42-44 | a resolved slug lists exactly the rows of that category |
| `PublicProductsRoute.UnknownSlugListsEverything` | src/app/api/public/products/route.ts:26 | a slug naming no category lists every row, not none |
| `PublicProductsRoute.FailedLookupListsEverything` | src/app/api/public/products/route.ts:20-26 | a failed slug lookup lists every row |
| `ProductImagesRoute.Attach` | src/app/api/admin/products/images/route.ts:12-44 | the store is called if and only if both fields are truthy; exactly one row of product id and image URL is inserted; a missing field is a 400 and an insert error a 500 |
| `ProductImagesRoute.Detach` | src/app/api/admin/products/images/route.ts:47-78 | missing id gives 400 with no call; one delete by the image id alone, naming no product; success exactly when the store reports no error |
| `UploadRoute.Split` | src/app/api/admin/upload/route.ts:24 | `split` gives at least one piece, no piece holds the separator, and one piece exactly when the string has no separator |
| `UploadRoute.SplitJoin` | src/app/api/admin/upload/route.ts:24 | joining the pieces with the separator gives the string back |
| `UploadRoute.Extension` | src/app/api/admin/upload/route.ts:24 | the extension holds no `.`, ends the file name, and is the whole name or follows a `.` |
| `UploadRoute.LastPieceFollowsLastSeparator` | src/app/api/admin/upload/route.ts:24 | whatever precedes the last `.`, the extension is the text after it |
| `UploadRoute.DotlessNameIsExtension` | src/app/api/admin/upload/route.ts:24 | a name with no `.` is its own extension |
| `UploadRoute.TrailingDotEmptyExtension` | src/app/api/admin/upload/route.ts:24 | a name ending in `.` has the empty extension |
| `UploadRoute.StoredName` | src/app/api/admin/upload/route.ts:24-25 | the stored name is the id, then `.`, then the extension of the uploaded name, and has that extension itself |
| `UploadRoute.Upload` | src/app/api/admin/upload/route.ts:12-54 | an upload happens exactly for a file; it goes to the "product-images" bucket under id + "." + extension; no file or an empty text field is a 400, a non-empty text field a 500; an upload error is exactly the 500 case with no URL; success returns the public URL of that name |
| `Middleware.Gate` | src/middleware.ts:6-25 | a redirect happens if and only if the path starts with "/admin", is not exactly "/admin/login" and has no `admin_session` cookie, and it always goes to "/admin/login" |
| `Middleware.NoRedirectLoop` | src/middleware.ts:12-21 | the login page is always admitted, so following a redirect is admitted |
| `Middleware.ExistenceOnly` | src/middleware.ts:16-18 | two cookie jars that agree on whether the session cookie exists get the same decision |
| `Middleware.AnyTokenAdmitted` | src/middleware.ts:16-18 | any value of the session cookie is admitted |
| `Middleware.TextualPrefix` | src/middleware.ts:10-12 | "/administrator", "/admin" and "/admin/login/" are all gated |
| `Middleware.AdminApiNotGated` | src/middleware.ts:10 | "/api/admin/..." paths pass without a cookie |
| `LoginRoute.Login` | src/app/api/admin/login/route.ts:12-63 | at most one credential read and no write; a falsy password is a 400 before it, a failed read a 500, a mismatch a 401; success exactly on a match, and the session cookie is set exactly on success |
| `ChangePasswordRoute.ChangePassword` | src/app/api/admin/change-password/route.ts:12-92 | presence then length checks before any store call; a failed read is a 500; a mismatch is a 401 with the read only; the update is issued exactly when everything before it passes and replaces the read row's hash with the new password's hash; the session is cleared exactly on full success |
| `ChangePasswordRoute.TooShort` | src/app/api/admin/change-password/route.ts:23 | a string is too short exactly when its UTF-16 length is below 4, so fewer than 2 characters always are and 4 or more never are; an array is too short exactly when its length is below 4; any other value passes, its length being undefined |
| `ChangePasswordRoute.ChecksPrecedeRead` | src/app/api/admin/change-password/route.ts:16-35 | a request failing either check gets an answer independent of the store |
| `ChangePasswordRoute.PresenceBeforeLength` | src/app/api/admin/change-password/route.ts:16-28 | with a field missing the answer is "Missing fields" even for a short new password, which alone gives the length error |
| `ChangePasswordRoute.SurrogatePairsCountTwice` | src/app/api/admin/change-password/route.ts:23-28 | a new password of two characters above U+FFFF has `.length` 4 and passes the length check |
| `AdminSession.ReadCredential` | src/app/api/admin/login/route.ts:24-28 | `.limit(1).single()` returns the first row exactly when the read succeeds and the table is not empty |
| `AdminSession.SetHash` | src/app/api/admin/change-password/route.ts:59-65 | rows with the id get the new hash; every other row is unchanged |
| `AdminSession.ApplyCookie` | src/app/api/admin/change-password/route.ts:77-83 | a non-positive `maxAge` removes the cookie, any other value stores it, and no other cookie changes |
| `AdminSession.Commit` | src/app/api/admin/change-password/route.ts:59-65 | the stored credentials keep their number and ids; a rejected write or a call list without a hash update leaves them as they were |
| `AdminSession.Step` | src/app/api/admin/login/route.ts:46-56 | a login never changes the credentials, a request that does not succeed leaves the cookies as they were, and no cookie other than the session cookie changes |
| `AdminSession.FailureChangesNothing` | src/app/api/admin/change-password/route.ts:49-72 | a failed login or change-password leaves credentials and cookies as they were, and login never changes the credentials |
| `AdminSession.LoginAdmits` | src/app/api/admin/login/route.ts:47-54 | after a successful login the browser holds the session and every path is admitted |
| `AdminSession.ChangePasswordLocksOut` | src/app/api/admin/change-password/route.ts:74-83 | after a successful change-password every gated path redirects to the login page |
| `AdminSession.OnlyLoginAuthenticates` | src/app/api/admin/login/route.ts:46-56 | only a successful login turns a browser without a session into one with a session |
| `AdminSession.ChangePasswordReplacesHash` | src/app/api/admin/change-password/route.ts:56-65 | a successful change gives the read row the new password's hash and touches no row with another id |
| `AdminSession.NewPasswordLogsIn` | src/app/api/admin/change-password/route.ts:57-65 | after a successful change the new password logs in, given that bcrypt accepts a password against its own hash |

## Left out

- UI components, pages and layouts: rendering only.
- The public image streaming route (src/app/api/public/image/route.ts): binary I/O with no decisions.
- The product detail routes under `products/[id]` and `products/[slug]` are not part of this model.
- The database and object store themselves: SQL semantics, `created_at` ordering, uniqueness constraints and rows-affected counts. Their replies are inputs, and list rows arrive already ordered.
- bcrypt and uuid: no cryptography and no randomness; `compare` and `hash` are given functions and the id is a parameter.
- The `updated_at` timestamp the password update also sends: a clock reading.
- Cookie transport attributes (`httpOnly`, `secure`, `sameSite`, `path`) and the framework's `config.matcher` routing; `Middleware.Gate` models the function's own textual test.
- The middleware's `console.log`.
- The uploaded file's bytes and content type, and how `getPublicUrl` formats the URL.
- Concurrent requests and races at the store's uniqueness constraint.
- `Slug.GenerateSlug`: case mapping and the whitespace class are the ASCII ones; JavaScript's Unicode `toLowerCase`, Unicode `\s` and `trim` are not modelled, so the model agrees with the source on ASCII names.
- `CategoriesRoute.Create`: `trim` strips only ASCII whitespace (see `Slug.GenerateSlug`); `.length` is modelled in UTF-16 code units.
- `CategoriesRoute.Update`: the same ASCII-only `trim` is used for the length test and the written name, so a name such as U+00A0 followed by `a` is updated where JavaScript, which trims U+00A0, answers 400.
- `ProductsRoute.Create`: the inserted `name.trim()` strips only ASCII whitespace, so a name surrounded by other Unicode whitespace is inserted with it.
- `JsValues.Utf16Length`: a string is a sequence of Unicode scalar values, so a lone surrogate, which a JavaScript string may hold, is not representable.
- `ProductsRoute.Create`: JSON numbers are integers in the model; the route only tests the price for truthiness, and a fraction is truthy like any non-zero integer, so floating point is not modelled.
- `ChangePasswordRoute.ChangePassword`: a JSON object with its own `length` key is treated like any object, whose `.length` is undefined.
- `AdminSession.ApplyCookie`: the browser side of `Set-Cookie` is the usual one (a non-positive `maxAge` deletes); cookie expiry over time is not modelled.

=== FILE: admin_session.dfy ===
/** The admin session as a state machine over (credential rows, browser
    cookie jar): login and change-password are its transitions, and the
    middleware reads the jar on every admin page request. */
module AdminSession {
  import opened Wrappers
  import opened JsValues
  import opened Records
  import opened Store
  import opened Http
  import opened Middleware
  import LoginRoute
  import ChangePasswordRoute

  datatype State = State(credentials: seq<CredentialRow>, jar: Cookies)

  /** Which of this request's store calls fail. */
  datatype Faults = Faults(readFails: bool, updateFails: bool)

  datatype Event =
    | Login(login: Parsed<LoginRoute.LoginInput>, faults: Faults)
    | ChangePassword(change: Parsed<ChangePasswordRoute.ChangeInput>, faults: Faults)

  datatype Outcome = Outcome(state: State, response: Response)

  /** The browser holds a session. */
  predicate Authenticated(s: State) {
    SESSION_COOKIE in s.jar
  }

  /** `.select(...).limit(1).single()` on the credential table: its first
      row, or an error when the table is empty or the read fails. */
  function ReadCredential(rows: seq<CredentialRow>, readFails: bool): (r: Reply<CredentialRow>)
    ensures r.Done? <==> !readFails && |rows| > 0
    ensures r.Done? ==> r.data == rows[0]
  {
    if readFails || |rows| == 0 then Failed else Done(rows[0])
  }

  /** `.update({ password_hash }).eq("id", id)`: every row with that id
      gets the new hash; every other row is left as it was. */
  function SetHash(rows: seq<CredentialRow>, id: string, hash: string): (r: seq<CredentialRow>)
    ensures |r| == |rows|
    ensures forall i :: 0 <= i < |rows| ==>
      r[i] == (if rows[i].id == id then CredentialRow(id, hash) else rows[i])
  {
    if rows == [] then []
    else [if rows[0].id == id then CredentialRow(id, hash) else rows[0]] + SetHash(rows[1..], id, hash)
  }

  /** The credential table after the store accepts or rejects `calls`:
      only a password-hash update changes it, and no call adds, removes or
      renames a row. */
  function Commit(rows: seq<CredentialRow>, calls: seq<Call>, reply: WriteReply): (r: seq<CredentialRow>)
    ensures |r| == |rows|
    ensures forall i :: 0 <= i < |rows| ==> r[i].id == rows[i].id
    ensures reply.Rejected? ==> r == rows
    ensures (forall i :: 0 <= i < |calls| ==> !calls[i].UpdatePasswordHash?) ==> r == rows
    decreases |calls|
  {
    if calls == [] || reply.Rejected? then rows
    else
      var next := match calls[0]
                  case UpdatePasswordHash(id, hash) => SetHash(rows, id, hash)
                  case _ => rows;
      Commit(next, calls[1..], reply)
  }

  /** How the browser applies a `Set-Cookie`: a non-positive `maxAge`
      deletes the cookie, anything else stores the value. */
  function ApplyCookie(jar: Cookies, directive: Option<CookieDirective>): (r: Cookies)
    ensures directive.None? ==> r == jar
    ensures directive.Some? ==>
      var d := directive.value;
      && (d.maxAge.Some? && d.maxAge.value <= 0 ==> d.name !in r)
      && (!(d.maxAge.Some? && d.maxAge.value <= 0) ==> d.name in r && r[d.name] == d.value)
      && (forall n :: n != d.name ==> (n in r <==> n in jar) && (n in r ==> r[n] == jar[n]))
  {
    match directive
    case None => jar
    case Some(d) =>
      if d.maxAge.Some? && d.maxAge.value <= 0 then jar - {d.name} else jar[d.name := d.value]
  }

  /** One request against the session: login never writes credentials, a
      request that does not succeed leaves the cookies as they were, and
      no request touches a cookie other than the session cookie. */
  function Step(s: State, e: Event, bcrypt: PasswordHasher): (o: Outcome)
    ensures e.Login? ==> o.state.credentials == s.credentials
    ensures o.response.status != OK ==> o.state.jar == s.jar
    ensures forall n :: n != SESSION_COOKIE ==>
      (n in o.state.jar <==> n in s.jar) && (n in o.state.jar ==> o.state.jar[n] == s.jar[n])
  {
    match e
    case Login(req, faults) =>
      var h := LoginRoute.Login(req, ReadCredential(s.credentials, faults.readFails), bcrypt);
      Outcome(State(s.credentials, ApplyCookie(s.jar, h.response.setCookie)), h.response)
    case ChangePassword(req, faults) =>
      var update := if faults.updateFails then Rejected else Accepted;
      var h := ChangePasswordRoute.ChangePassword(req, ReadCredential(s.credentials, faults.readFails), update, bcrypt);
      Outcome(State(Commit(s.credentials, h.calls, update), ApplyCookie(s.jar, h.response.setCookie)), h.response)
  }

  /** A failed request leaves the browser's cookies as they were, and only
      a successful change-password alters the credentials: login never
      does, and a wrong current password or a failed update neither. */
  lemma FailureChangesNothing(s: State, e: Event, bcrypt: PasswordHasher)
    ensures var o := Step(s, e, bcrypt);
            && (o.response.status != OK ==> o.state == s)
            && (e.Login? ==> o.state.credentials == s.credentials)
  {
    var o := Step(s, e, bcrypt);
    if e.ChangePassword? && o.response.status != OK {
      var update := if e.faults.updateFails then Rejected else Accepted;
      var h := ChangePasswordRoute.ChangePassword(e.change, ReadCredential(s.credentials, e.faults.readFails), update, bcrypt);
      if |h.calls| == 2 {
        assert update.Rejected?;
      } else {
        assert h.calls == [] || h.calls == [SelectCredential];
        assert Commit(s.credentials, h.calls, update) == s.credentials by {
          if h.calls != [] {
            assert h.calls[1..] == [];
          }
        }
      }
    }
  }

  /** After a successful login every path is admitted. */
  lemma LoginAdmits(s: State, req: Parsed<LoginRoute.LoginInput>, faults: Faults,
                    bcrypt: PasswordHasher, path: string)
    requires Step(s, Login(req, faults), bcrypt).response.status == OK
    ensures Authenticated(Step(s, Login(req, faults), bcrypt).state)
    ensures Gate(path, Step(s, Login(req, faults), bcrypt).state.jar) == Next
  {
  }

  /** After a successful change-password the session is gone: every gated
      path redirects to the login page until the next login. */
  lemma ChangePasswordLocksOut(s: State, req: Parsed<ChangePasswordRoute.ChangeInput>, faults: Faults,
                               bcrypt: PasswordHasher, path: string)
    requires Step(s, ChangePassword(req, faults), bcrypt).response.status == OK
    requires Gated(path)
    ensures !Authenticated(Step(s, ChangePassword(req, faults), bcrypt).state)
    ensures Gate(path, Step(s, ChangePassword(req, faults), bcrypt).state.jar) == Redirect(LOGIN_PATH)
  {
  }

  /** Only a successful login makes an unauthenticated browser
      authenticated. */
  lemma OnlyLoginAuthenticates(s: State, e: Event, bcrypt: PasswordHasher)
    requires !Authenticated(s) && Authenticated(Step(s, e, bcrypt).state)
    ensures e.Login? && Step(s, e, bcrypt).response.status == OK
  {
    FailureChangesNothing(s, e, bcrypt);
  }

  /** A successful change-password gives the row that was read, and every
      row sharing its id, the hash of the new password; no other row
      changes. */
  lemma ChangePasswordReplacesHash(s: State, req: Parsed<ChangePasswordRoute.ChangeInput>, faults: Faults,
                                   bcrypt: PasswordHasher)
    requires Step(s, ChangePassword(req, faults), bcrypt).response.status == OK
    ensures |s.credentials| > 0 && req.Parsed? && req.body.newPassword.Str?
    ensures var rows, id := Step(s, ChangePassword(req, faults), bcrypt).state.credentials, s.credentials[0].id;
            && rows == SetHash(s.credentials, id, bcrypt.hash(req.body.newPassword.s))
            && rows[0].passwordHash == bcrypt.hash(req.body.newPassword.s)
            && (forall i :: 0 <= i < |rows| && s.credentials[i].id != id ==> rows[i] == s.credentials[i])
  {
    var stored := ReadCredential(s.credentials, faults.readFails);
    var h := ChangePasswordRoute.ChangePassword(req, stored, Accepted, bcrypt);
    assert !faults.updateFails;
    assert |h.calls| == 2;
    var update := h.calls[1];
    var hashed := SetHash(s.credentials, s.credentials[0].id, bcrypt.hash(req.body.newPassword.s));
    assert update == UpdatePasswordHash(s.credentials[0].id, bcrypt.hash(req.body.newPassword.s));
    assert h.calls[1..] == [update] && h.calls[1..][1..] == [];
    calc {
      Commit(s.credentials, h.calls, Accepted);
      Commit(s.credentials, [update], Accepted);
      Commit(hashed, [], Accepted);
    }
  }

  /** After a successful change-password, the new password logs in, as long
      as bcrypt matches a password against its own hash. */
  lemma NewPasswordLogsIn(s: State, current: string, next: string, faults: Faults, bcrypt: PasswordHasher)
    requires bcrypt.compare(next, bcrypt.hash(next))
    requires Step(s, ChangePassword(Parsed(ChangePasswordRoute.ChangeInput(Str(current), Str(next))), faults), bcrypt)
               .response.status == OK
    ensures var s' := Step(s, ChangePassword(Parsed(ChangePasswordRoute.ChangeInput(Str(current), Str(next))), faults), bcrypt).state;
            var o := Step(s', Login(Parsed(LoginRoute.LoginInput(Str(next))), Faults(false, false)), bcrypt);
            o.response.status == OK && Authenticated(o.state)
  {
    ChangePasswordReplacesHash(s, Parsed(ChangePasswordRoute.ChangeInput(Str(current), Str(next))), faults, bcrypt);
  }
}

=== FILE: categories_route.dfy ===
/** The admin category routes: list, create, rename and delete. */
module CategoriesRoute {
  import opened Wrappers
  import opened JsValues
  import opened Records
  import opened Store
  import opened Http
  import opened Slug

  datatype CreateInput = CreateInput(name: Value)
  datatype UpdateInput = UpdateInput(id: Value, name: Value)

  const FETCH_FAILED := "Failed to fetch categories"
  const NAME_REQUIRED := "Category name is required"
  const INSERT_FAILED := "Category already exists or failed to insert"
  const UPDATE_INVALID := "Valid id and category name are required"
  const UPDATE_FAILED := "Failed to update category (maybe duplicate name)"
  const ID_REQUIRED := "Category id is required"
  const DELETE_FAILED := "Failed to delete category"

  /** `name.trim()` throws: the name is truthy but not a string. */
  predicate TrimThrows(name: Value) {
    Truthy(name) && !name.Str?
  }

  /** The name passes `!name || name.trim().length < 2`, the length in
      UTF-16 code units. The test is on the raw name, not on its slug. */
  predicate NameAccepted(name: Value)
    ensures NameAccepted(name) ==> name.Str? && Trim(name.s) != []
    ensures name.Str? && |Trim(name.s)| >= 2 ==> NameAccepted(name)
    ensures name.Str? ==> (NameAccepted(name) <==> Utf16Length(Trim(name.s)) >= 2)
  {
    name.Str? && Utf16Length(Trim(name.s)) >= 2
  }

  /** A name that trims to one character is refused unless that character
      is a surrogate pair in UTF-16. */
  lemma OneCharacterName(name: string)
    requires |Trim(name)| == 1
    ensures NameAccepted(Str(name)) <==> Trim(name)[0] as int > 0xFFFF
  {
    var t := Trim(name);
    assert t == [t[0]];
    Utf16LengthOfChar(t[0]);
  }

  /** `GET`: the category list as the store returns it (oldest first). */
  function List(reply: Reply<seq<Category>>): (h: Handled)
    ensures WellFormed(h.response) && h.response.setCookie.None?
    ensures h.calls == [SelectCategories]
    ensures h.response.status == SERVER_ERROR <==> reply.Failed?
    ensures reply.Done? ==> h.response.body == CategoryList(reply.data)
  {
    match reply
    case Failed => Handled(Fail(SERVER_ERROR, FETCH_FAILED), [SelectCategories])
    case Done(rows) => Handled(Respond(CategoryList(rows)), [SelectCategories])
  }

  /** `POST { name }`: a rejected name is answered with 400 before any store
      call; an accepted one is inserted once, trimmed, with the slug of the
      untrimmed name, and an insert error is a 400. */
  function Create(req: Parsed<CreateInput>, reply: Reply<Category>): (h: Handled)
    ensures WellFormed(h.response) && h.response.setCookie.None?
    ensures h.calls != [] <==> req.Parsed? && NameAccepted(req.body.name)
    ensures h.calls != [] ==>
      h.calls == [InsertCategory(Trim(req.body.name.s), GenerateSlug(req.body.name.s))]
    ensures req.Parsed? && !NameAccepted(req.body.name) && !TrimThrows(req.body.name) ==>
      h.response == Fail(BAD_REQUEST, NAME_REQUIRED)
    ensures req.Malformed? || (req.Parsed? && TrimThrows(req.body.name)) ==>
      h.response == ServerError()
    ensures h.calls != [] ==> (h.response.status == BAD_REQUEST <==> reply.Failed?)
    ensures h.calls != [] && reply.Done? ==> h.response.body == CategoryCreated(reply.data)
  {
    if req.Malformed? then Handled(ServerError(), [])
    else
      var name := req.body.name;
      if Falsy(name) then Handled(Fail(BAD_REQUEST, NAME_REQUIRED), [])
      else if !name.Str? then Handled(ServerError(), [])
      else if Utf16Length(Trim(name.s)) < 2 then Handled(Fail(BAD_REQUEST, NAME_REQUIRED), [])
      else
        var call := InsertCategory(Trim(name.s), GenerateSlug(name.s));
        match reply
        case Failed => Handled(Fail(BAD_REQUEST, INSERT_FAILED), [call])
        case Done(row) => Handled(Respond(CategoryCreated(row)), [call])
  }

  /** `PUT { id, name }`: the same name test as create, after a missing id;
      an accepted rename re-derives the slug, and any reply without an error
      is a success (there is no not-found case). */
  function Update(req: Parsed<UpdateInput>, reply: WriteReply): (h: Handled)
    ensures WellFormed(h.response) && h.response.setCookie.None?
    ensures h.calls != [] <==>
      req.Parsed? && Truthy(req.body.id) && NameAccepted(req.body.name)
    ensures h.calls != [] ==>
      h.calls == [UpdateCategory(req.body.id, Trim(req.body.name.s), GenerateSlug(req.body.name.s))]
    ensures req.Parsed? && Falsy(req.body.id) ==> h.response == Fail(BAD_REQUEST, UPDATE_INVALID)
    ensures req.Parsed? && !NameAccepted(req.body.name) && !TrimThrows(req.body.name) ==>
      h.response == Fail(BAD_REQUEST, UPDATE_INVALID)
    ensures req.Malformed? || (req.Parsed? && Truthy(req.body.id) && TrimThrows(req.body.name)) ==>
      h.response == ServerError()
    ensures h.calls != [] ==>
      h.response == (if reply.Rejected? then Fail(BAD_REQUEST, UPDATE_FAILED) else Respond(Success))
  {
    if req.Malformed? then Handled(ServerError(), [])
    else
      var id := req.body.id;
      var name := req.body.name;
      if Falsy(id) || Falsy(name) then Handled(Fail(BAD_REQUEST, UPDATE_INVALID), [])
      else if !name.Str? then Handled(ServerError(), [])
      else if Utf16Length(Trim(name.s)) < 2 then Handled(Fail(BAD_REQUEST, UPDATE_INVALID), [])
      else
        var call := UpdateCategory(id, Trim(name.s), GenerateSlug(name.s));
        match reply
        case Rejected => Handled(Fail(BAD_REQUEST, UPDATE_FAILED), [call])
        case Accepted => Handled(Respond(Success), [call])
  }

  /** `DELETE ?id=`: a missing id is a 400 with no store call, a delete error
      a 500, and anything else a success. */
  function Delete(id: Option<string>, reply: WriteReply): (h: Handled)
    ensures WellFormed(h.response) && h.response.setCookie.None?
    ensures h.calls != [] <==> !MissingParam(id)
    ensures h.calls != [] ==> h.calls == [DeleteById(Categories, id.value)]
    ensures h.response.status == BAD_REQUEST <==> MissingParam(id)
    ensures h.response.status == SERVER_ERROR <==> !MissingParam(id) && reply.Rejected?
  {
    DeleteByParam(Categories, id, reply, ID_REQUIRED, DELETE_FAILED)
  }

  /** A rejected create never reaches the store: its response is the same
      whatever the store would have replied. */
  lemma CreateValidatesFirst(req: Parsed<CreateInput>, r1: Reply<Category>, r2: Reply<Category>)
    requires !(req.Parsed? && NameAccepted(req.body.name))
    ensures Create(req, r1) == Create(req, r2)
    ensures Create(req, r1).calls == []
  {
  }

  /** A rejected rename never reaches the store. */
  lemma UpdateValidatesFirst(req: Parsed<UpdateInput>, r1: WriteReply, r2: WriteReply)
    requires !(req.Parsed? && Truthy(req.body.id) && NameAccepted(req.body.name))
    ensures Update(req, r1) == Update(req, r2)
    ensures Update(req, r1).calls == []
  {
  }

  /** Renaming to a name writes the same name and slug as creating a
      category with that name. */
  lemma RenameRederivesSlug(id: Value, name: string, r1: Reply<Category>, r2: WriteReply)
    requires Truthy(id) && NameAccepted(Str(name))
    ensures var c := Create(Parsed(CreateInput(Str(name))), r1).calls;
            var u := Update(Parsed(UpdateInput(id, Str(name))), r2).calls;
            |c| == 1 && |u| == 1 && c[0].name == u[0].name && c[0].slug == u[0].slug
  {
  }

  /** The length test is on the raw name, not on its slug: a name of two
      or more characters none of which survives the slug's filter, such as
      "!!", is inserted with the empty slug. */
  lemma PunctuationNameInserted(name: string, reply: Reply<Category>)
    requires |name| >= 2
    requires forall i :: 0 <= i < |name| ==> !Allowed(LowerChar(name[i]))
    ensures Create(Parsed(CreateInput(Str(name))), reply).calls == [InsertCategory(name, "")]
  {
    assert Trim(name) == name by {
      assert forall i :: 0 <= i < |name| ==> !IsSpace(name[i]) by {
        forall i | 0 <= i < |name|
          ensures !IsSpace(name[i])
        {
          assert !Allowed(LowerChar(name[i]));
        }
      }
      TrimFixesPadded(name);
    }
    NothingAllowedEmptySlug(name);
  }

  /** A name with a trailing space and the same name without it insert the
      same name and slug, so the second insert meets the first at the
      store's uniqueness constraint. */
  lemma TrailingSpaceSameRow(name: string, r1: Reply<Category>, r2: Reply<Category>)
    ensures Create(Parsed(CreateInput(Str(name + " "))), r1).calls
         == Create(Parsed(CreateInput(Str(name))), r2).calls
  {
    assert Trim(name + " ") == Trim(name) by { TrimIgnoresTrailingSpace(name, ' '); }
    assert GenerateSlug(name + " ") == GenerateSlug(name) by {
      SlugIgnoresSurroundingSpace(name + " ");
      SlugIgnoresSurroundingSpace(name);
    }
  }

  /** A name of one character outside the Basic Multilingual Plane is two
      UTF-16 code units long, so a rename to it passes the length test. */
  lemma SurrogatePairNameAccepted(id: Value, c: char, reply: WriteReply)
    requires Truthy(id) && c as int > 0xFFFF
    ensures Update(Parsed(UpdateInput(id, Str([c]))), reply).calls != []
  {
    Utf16LengthOfChar(c);
    TrimFixesPadded([c]);
  }
}

=== FILE: change_password_route.dfy ===
/** The admin change-password route: validates the inputs, checks the current
    password, stores the new hash and ends the session. */
module ChangePasswordRoute {
  import opened Wrappers
  import opened JsValues
  import opened Records
  import opened Store
  import opened Http
  import LoginRoute

  datatype ChangeInput = ChangeInput(currentPassword: Value, newPassword: Value)

  const MISSING_FIELDS := "Missing fields"
  const TOO_SHORT := "New password must be at least 4 characters"
  const NOT_CONFIGURED := "Admin credentials not configured"
  const WRONG_PASSWORD := "Current password is incorrect"
  const UPDATE_FAILED := "Failed to update password"

  /** `cookies.set("admin_session", "", { maxAge: 0 })`. */
  function ClearedSessionCookie(): CookieDirective {
    CookieDirective(SESSION_COOKIE, "", Some(0))
  }

  predicate FieldsPresent(input: ChangeInput) {
    Truthy(input.currentPassword) && Truthy(input.newPassword)
  }

  /** `newPassword.length < 4`; where `length` is undefined the comparison
      is false and the check passes. */
  predicate TooShort(newPassword: Value)
    requires Truthy(newPassword)
    ensures newPassword.Str? && |newPassword.s| < 2 ==> TooShort(newPassword)
    ensures newPassword.Str? && |newPassword.s| >= 4 ==> !TooShort(newPassword)
    ensures newPassword.Arr? ==> (TooShort(newPassword) <==> newPassword.length < 4)
    ensures !newPassword.Str? && !newPassword.Arr? ==> !TooShort(newPassword)
    ensures newPassword.Str? ==> (TooShort(newPassword) <==> Utf16Length(newPassword.s) < 4)
  {
    var n := LengthOf(newPassword);
    n.Some? && n.value < 4
  }

  /** The request passes both checks made before the store is read. */
  predicate PassesChecks(input: ChangeInput) {
    FieldsPresent(input) && !TooShort(input.newPassword)
  }

  /** The update is issued: the checks pass, the row is read, the current
      password matches and the new one can be hashed. */
  predicate WillUpdate(req: Parsed<ChangeInput>, stored: Reply<CredentialRow>, bcrypt: PasswordHasher) {
    && req.Parsed? && PassesChecks(req.body) && stored.Done?
    && LoginRoute.Matches(req.body.currentPassword, stored.data, bcrypt)
    && req.body.newPassword.Str?
  }

  /** `POST { currentPassword, newPassword }`. `stored` is the reply to the
      credential read (`Failed` when it errs or finds no row), `update` the
      reply to the hash update. */
  function ChangePassword(req: Parsed<ChangeInput>, stored: Reply<CredentialRow>,
                          update: WriteReply, bcrypt: PasswordHasher): (h: Handled)
    ensures WellFormed(h.response)
    // presence, then length, both before the store is read
    ensures h.calls == [] <==> req.Malformed? || !PassesChecks(req.body)
    ensures req.Parsed? && !FieldsPresent(req.body) ==> h.response == Fail(BAD_REQUEST, MISSING_FIELDS)
    ensures req.Parsed? && FieldsPresent(req.body) && TooShort(req.body.newPassword) ==>
      h.response == Fail(BAD_REQUEST, TOO_SHORT)
    ensures req.Parsed? && PassesChecks(req.body) && stored.Failed? ==>
      h == Handled(Fail(SERVER_ERROR, NOT_CONFIGURED), [SelectCredential])
    // a wrong current password is refused with no write
    ensures req.Parsed? && PassesChecks(req.body) && stored.Done? && req.body.currentPassword.Str?
            && !LoginRoute.Matches(req.body.currentPassword, stored.data, bcrypt) ==>
      h == Handled(Fail(UNAUTHORIZED, WRONG_PASSWORD), [SelectCredential])
    // the one write replaces the hash of the row that was read
    ensures |h.calls| <= 2
    ensures |h.calls| == 2 <==> WillUpdate(req, stored, bcrypt)
    ensures |h.calls| == 2 ==>
      h.calls == [SelectCredential, UpdatePasswordHash(stored.data.id, bcrypt.hash(req.body.newPassword.s))]
    ensures |h.calls| == 2 && update.Rejected? ==> h.response == Fail(SERVER_ERROR, UPDATE_FAILED)
    // the session is cleared exactly on full success
    ensures h.response.status == OK <==> WillUpdate(req, stored, bcrypt) && update.Accepted?
    ensures h.response.setCookie.Some? <==> h.response.status == OK
    ensures h.response.status == OK ==> h.response == Response(OK, Success, Some(ClearedSessionCookie()))
  {
    if req.Malformed? then Handled(ServerError(), [])
    else
      var current := req.body.currentPassword;
      var next := req.body.newPassword;
      if Falsy(current) || Falsy(next) then Handled(Fail(BAD_REQUEST, MISSING_FIELDS), [])
      else if TooShort(next) then Handled(Fail(BAD_REQUEST, TOO_SHORT), [])
      else
        match stored
        case Failed => Handled(Fail(SERVER_ERROR, NOT_CONFIGURED), [SelectCredential])
        case Done(row) =>
          if !current.Str? then Handled(ServerError(), [SelectCredential])
          else if !bcrypt.compare(current.s, row.passwordHash) then
            Handled(Fail(UNAUTHORIZED, WRONG_PASSWORD), [SelectCredential])
          else if !next.Str? then Handled(ServerError(), [SelectCredential])
          else
            var call := UpdatePasswordHash(row.id, bcrypt.hash(next.s));
            match update
            case Rejected => Handled(Fail(SERVER_ERROR, UPDATE_FAILED), [SelectCredential, call])
            case Accepted => Handled(Response(OK, Success, Some(ClearedSessionCookie())), [SelectCredential, call])
  }

  /** Both checks come before the read: a request that fails them gets the
      same answer whatever the store holds or replies. */
  lemma ChecksPrecedeRead(req: Parsed<ChangeInput>, s1: Reply<CredentialRow>, s2: Reply<CredentialRow>,
                          u1: WriteReply, u2: WriteReply, bcrypt: PasswordHasher)
    requires req.Parsed? && !PassesChecks(req.body)
    ensures ChangePassword(req, s1, u1, bcrypt) == ChangePassword(req, s2, u2, bcrypt)
  {
  }

  /** Presence is checked before length: with a field missing, the answer
      is "Missing fields" even when the new password is also short. */
  lemma PresenceBeforeLength(newPassword: string, s: Reply<CredentialRow>, u: WriteReply, bcrypt: PasswordHasher)
    requires newPassword != [] && Utf16Length(newPassword) < 4
    ensures ChangePassword(Parsed(ChangeInput(Str(""), Str(newPassword))), s, u, bcrypt).response
         == Fail(BAD_REQUEST, MISSING_FIELDS)
    ensures ChangePassword(Parsed(ChangeInput(Str("x"), Str(newPassword))), s, u, bcrypt).response
         == Fail(BAD_REQUEST, TOO_SHORT)
  {
    var next := Str(newPassword);
    assert Truthy(next) && TooShort(next) by {
      assert LengthOf(next) == Some(Utf16Length(newPassword));
    }
    assert Falsy(Str("")) && Truthy(Str("x"));
  }

  /** The length is counted in UTF-16 code units: two characters outside
      the Basic Multilingual Plane, such as two emoji, are four units, so
      they pass the length check and the credentials are read. */
  lemma SurrogatePairsCountTwice(current: string, a: char, b: char, s: Reply<CredentialRow>,
                                 u: WriteReply, bcrypt: PasswordHasher)
    requires current != [] && a as int > 0xFFFF && b as int > 0xFFFF
    ensures ChangePassword(Parsed(ChangeInput(Str(current), Str([a, b]))), s, u, bcrypt).calls != []
  {
    assert Utf16Length([a, b]) == 4 by {
      assert [a, b][1..] == [b] && [b][1..] == [];
    }
  }
}

=== FILE: http.dfy ===
/** Responses: a status, a JSON body and at most one `Set-Cookie`. */
module Http {
  import opened Wrappers
  import opened Records
  import opened Store
  import JsValues

  const OK: nat := 200
  const BAD_REQUEST: nat := 400
  const UNAUTHORIZED: nat := 401
  const SERVER_ERROR: nat := 500

  /** The name of the admin session cookie. */
  const SESSION_COOKIE := "admin_session"

  /** The message every route's `catch` returns. */
  const SERVER_ERROR_MESSAGE := "Server error"

  datatype Body =
    | Error(message: string)
    | Success
    | CategoryList(categories: seq<Category>)
    | CategoryCreated(category: Category)
    | ProductCreated(product: StoredProduct)
    | AdminProducts(products: seq<AdminProduct>)
    | PublicProducts(items: seq<PublicProduct>)
    | Uploaded(url: string)

  /** `cookies.set(name, value, { maxAge })`; transport attributes are not
      modelled. */
  datatype CookieDirective = CookieDirective(name: string, value: string, maxAge: Option<int>)

  datatype Response = Response(status: nat, body: Body, setCookie: Option<CookieDirective>)

  /** What a handler did: its response, and the store calls it made, in order. */
  datatype Handled = Handled(response: Response, calls: seq<Call>)

  function Respond(body: Body): Response {
    Response(OK, body, None)
  }

  function Fail(status: nat, message: string): Response {
    Response(status, Error(message), None)
  }

  /** The response of every route's `catch`. */
  function ServerError(): Response {
    Fail(SERVER_ERROR, SERVER_ERROR_MESSAGE)
  }

  /** Every response carries either the requested data with status 200, or
      an error message with one of the error statuses the routes use. */
  predicate WellFormed(r: Response) {
    && (r.status == OK <==> !r.body.Error?)
    && r.status in {OK, BAD_REQUEST, UNAUTHORIZED, SERVER_ERROR}
  }

  /** The shared shape of the admin `DELETE ?id=` routes: a missing id is
      rejected before any store call; otherwise exactly one delete by that
      id is issued, and any reply without an error is a success. */
  function DeleteByParam(table: Table, id: Option<string>, reply: WriteReply,
                         missingMessage: string, failMessage: string): (h: Handled)
    ensures WellFormed(h.response)
    ensures h.response.setCookie.None?
    ensures JsValues.MissingParam(id) ==> h == Handled(Fail(BAD_REQUEST, missingMessage), [])
    ensures !JsValues.MissingParam(id) ==> h.calls == [DeleteById(table, id.value)]
    ensures !JsValues.MissingParam(id) ==>
      h.response == (if reply.Rejected? then Fail(SERVER_ERROR, failMessage) else Respond(Success))
  {
    if JsValues.MissingParam(id) then Handled(Fail(BAD_REQUEST, missingMessage), [])
    else
      var call := DeleteById(table, id.value);
      match reply
      case Rejected => Handled(Fail(SERVER_ERROR, failMessage), [call])
      case Accepted => Handled(Respond(Success), [call])
  }
}

=== FILE: js_values.dfy ===
/** The JavaScript values a route handler reads out of a decoded JSON body
    or a query string, with JavaScript truthiness. */
module JsValues {
  import opened Wrappers

  /** One field of a decoded JSON body. `Undefined` is an absent key. JSON
      numbers are modelled by integers, which is all that matters for
      truthiness (only zero is falsy). */
  datatype Value =
    | Undefined
    | Null
    | Bool(b: bool)
    | Num(n: int)
    | Str(s: string)
    | Arr(length: nat)
    | Obj

  /** `!v`: exactly the falsy values of JavaScript that JSON can carry. */
  predicate Falsy(v: Value)
    ensures Falsy(v) <==> v in {Undefined, Null, Bool(false), Num(0), Str("")}
  {
    match v
    case Undefined => true
    case Null => true
    case Bool(b) => !b
    case Num(n) => n == 0
    case Str(s) => s == ""
    case Arr(_) => false
    case Obj => false
  }

  predicate Truthy(v: Value) {
    !Falsy(v)
  }

  /** The number of UTF-16 code units of `s`, which is what a JavaScript
      string's `length` counts: a character outside the Basic Multilingual
      Plane is a surrogate pair and counts twice. */
  function Utf16Length(s: string): (n: nat)
    ensures |s| <= n <= 2 * |s|
    ensures n == |s| <==> forall i :: 0 <= i < |s| ==> s[i] as int <= 0xFFFF
  {
    if s == [] then 0
    else (if s[0] as int <= 0xFFFF then 1 else 2) + Utf16Length(s[1..])
  }

  /** The length of a concatenation is the sum of the lengths: with
      `Utf16LengthOfChar` this fixes the length of every string. */
  lemma {:induction false} Utf16LengthAppend(a: string, b: string)
    ensures Utf16Length(a + b) == Utf16Length(a) + Utf16Length(b)
  {
    if a == [] {
      assert a + b == b;
    } else {
      assert (a + b)[0] == a[0] && (a + b)[1..] == a[1..] + b;
      Utf16LengthAppend(a[1..], b);
    }
  }

  /** A character above U+FFFF is a surrogate pair: two code units. */
  lemma Utf16LengthOfChar(c: char)
    ensures Utf16Length([c]) == if c as int <= 0xFFFF then 1 else 2
  {
    assert [c][1..] == [];
  }

  /** `v.length`, or `None` where it is `undefined` (numbers, booleans,
      objects). */
  function LengthOf(v: Value): (r: Option<int>)
    requires Truthy(v)
    ensures r.Some? <==> v.Str? || v.Arr?
    ensures v.Str? ==> r == Some(Utf16Length(v.s))
  {
    match v
    case Str(s) => Some(Utf16Length(s))
    case Arr(n) => Some(n)
    case _ => None
  }

  /** `v || fallback`. */
  function Or(v: Value, fallback: Value): (r: Value)
    ensures Truthy(v) ==> r == v
    ensures Falsy(v) ==> r == fallback
  {
    if Truthy(v) then v else fallback
  }

  /** `!searchParams.get(name)`: the parameter is absent or empty. */
  predicate MissingParam(p: Option<string>) {
    p.None? || p.value == ""
  }

  /** The outcome of `await req.json()` or `await req.formData()`; a body
      that cannot be decoded or destructured throws inside the handler's
      `try`. */
  datatype Parsed<T> = Malformed | Parsed(body: T)
}

=== FILE: login_route.dfy ===
/** The admin login route: checks the password against the stored hash and
    issues the session cookie. */
module LoginRoute {
  import opened Wrappers
  import opened JsValues
  import opened Records
  import opened Store
  import opened Http

  datatype LoginInput = LoginInput(password: Value)

  const PASSWORD_REQUIRED := "Password is required"
  const NOT_CONFIGURED := "Admin credentials not configured"
  const INVALID_PASSWORD := "Invalid password"

  /** The value the session cookie is given; nothing ever reads it. */
  const SESSION_VALUE := "authenticated"

  /** `cookies.set("admin_session", "authenticated", ...)`, a session
      cookie with no `maxAge`. */
  function SessionCookie(): CookieDirective {
    CookieDirective(SESSION_COOKIE, SESSION_VALUE, None)
  }

  /** `bcrypt.compare(password, hash)` resolves to true; a non-string
      password makes it throw instead. */
  predicate Matches(password: Value, row: CredentialRow, bcrypt: PasswordHasher) {
    password.Str? && bcrypt.compare(password.s, row.passwordHash)
  }

  /** `POST { password }`. `stored` is the reply to the credential read,
      `Failed` when the read errs or finds no row. The route only reads the
      store; the cookie is set exactly on success. */
  function Login(req: Parsed<LoginInput>, stored: Reply<CredentialRow>, bcrypt: PasswordHasher): (h: Handled)
    ensures WellFormed(h.response)
    ensures h.calls == [] || h.calls == [SelectCredential]
    ensures h.calls == [] <==> req.Malformed? || Falsy(req.body.password)
    ensures req.Parsed? && Falsy(req.body.password) ==> h.response == Fail(BAD_REQUEST, PASSWORD_REQUIRED)
    ensures req.Parsed? && Truthy(req.body.password) && stored.Failed? ==>
      h.response == Fail(SERVER_ERROR, NOT_CONFIGURED)
    ensures req.Parsed? && Truthy(req.body.password) && stored.Done? && req.body.password.Str?
            && !Matches(req.body.password, stored.data, bcrypt) ==>
      h.response == Fail(UNAUTHORIZED, INVALID_PASSWORD)
    ensures h.response.status == OK <==>
      req.Parsed? && Truthy(req.body.password) && stored.Done? && Matches(req.body.password, stored.data, bcrypt)
    ensures h.response.setCookie.Some? <==> h.response.status == OK
    ensures h.response.status == OK ==> h.response == Response(OK, Success, Some(SessionCookie()))
  {
    if req.Malformed? then Handled(ServerError(), [])
    else
      var password := req.body.password;
      if Falsy(password) then Handled(Fail(BAD_REQUEST, PASSWORD_REQUIRED), [])
      else
        match stored
        case Failed => Handled(Fail(SERVER_ERROR, NOT_CONFIGURED), [SelectCredential])
        case Done(row) =>
          if !password.Str? then Handled(ServerError(), [SelectCredential])
          else if !bcrypt.compare(password.s, row.passwordHash) then
            Handled(Fail(UNAUTHORIZED, INVALID_PASSWORD), [SelectCredential])
          else Handled(Response(OK, Success, Some(SessionCookie())), [SelectCredential])
  }
}

=== FILE: middleware.dfy ===
/** The request middleware that gates the admin pages on the presence of the
    session cookie. */
module Middleware {
  import opened Http

  const ADMIN_PREFIX := "/admin"
  const LOGIN_PATH := "/admin/login"

  /** The request cookies, by name. */
  type Cookies = map<string, string>

  /** `NextResponse.next()` or a redirect to `location`. */
  datatype Decision = Next | Redirect(location: string)

  /** The paths the session check applies to: every path with the textual
      prefix "/admin" except exactly the login page. */
  predicate Gated(path: string) {
    ADMIN_PREFIX <= path && path != LOGIN_PATH
  }

  /** `middleware(request)`: a gated path without an `admin_session` cookie
      is redirected to the login page; everything else passes through. */
  function Gate(path: string, cookies: Cookies): (d: Decision)
    ensures d.Redirect? <==> Gated(path) && SESSION_COOKIE !in cookies
    ensures d.Redirect? ==> d.location == LOGIN_PATH
  {
    if ADMIN_PREFIX <= path then
      if path == LOGIN_PATH then Next
      else if SESSION_COOKIE !in cookies then Redirect(LOGIN_PATH)
      else Next
    else Next
  }

  /** Following a redirect is always admitted: there is no redirect loop. */
  lemma NoRedirectLoop(path: string, cookies: Cookies)
    ensures Gate(LOGIN_PATH, cookies) == Next
    ensures Gate(path, cookies).Redirect? ==> Gate(Gate(path, cookies).location, cookies) == Next
  {
  }

  /** Only the presence of the cookie matters, never its value. */
  lemma ExistenceOnly(path: string, c1: Cookies, c2: Cookies)
    requires SESSION_COOKIE in c1 <==> SESSION_COOKIE in c2
    ensures Gate(path, c1) == Gate(path, c2)
  {
  }

  /** Any value of the session cookie, however meaningless, is admitted. */
  lemma AnyTokenAdmitted(path: string, cookies: Cookies, token: string)
    ensures Gate(path, cookies[SESSION_COOKIE := token]) == Next
  {
  }

  /** The prefix test is textual: "/administrator" is gated, and
      "/admin/login/" is not the exempt path. */
  lemma TextualPrefix()
    ensures Gate("/administrator", map[]) == Redirect(LOGIN_PATH)
    ensures Gate("/admin/login/", map[]) == Redirect(LOGIN_PATH)
    ensures Gate("/admin", map[]) == Redirect(LOGIN_PATH)
  {
    assert ADMIN_PREFIX <= "/administrator";
    assert ADMIN_PREFIX <= "/admin/login/";
  }

  /** The admin API routes live under "/api/admin", which does not start
      with "/admin": the middleware passes them through without a cookie. */
  lemma AdminApiNotGated()
    ensures Gate("/api/admin/categories", map[]) == Next
    ensures Gate("/api/admin/change-password", map[]) == Next
  {
    assert !(ADMIN_PREFIX <= "/api/admin/categories") by {
      assert "/api/admin/categories"[2] != ADMIN_PREFIX[2];
    }
    assert !(ADMIN_PREFIX <= "/api/admin/change-password") by {
      assert "/api/admin/change-password"[2] != ADMIN_PREFIX[2];
    }
  }
}

=== FILE: product_images_route.dfy ===
/** The admin routes that attach an uploaded image to a product and detach
    it again. */
module ProductImagesRoute {
  import opened Wrappers
  import opened JsValues
  import opened Records
  import opened Store
  import opened Http

  datatype AttachInput = AttachInput(productId: Value, imageUrl: Value)

  const MISSING_FIELDS := "Missing productId or imageUrl"
  const SAVE_FAILED := "Failed to save image"
  const ID_REQUIRED := "Image id is required"
  const DELETE_FAILED := "Failed to delete image"

  /** `POST { productId, imageUrl }`: a falsy field is a 400 with no store
      call; otherwise exactly one `{ product_id, image_url }` row is
      inserted, and an insert error is a 500. */
  function Attach(req: Parsed<AttachInput>, reply: WriteReply): (h: Handled)
    ensures WellFormed(h.response) && h.response.setCookie.None?
    ensures h.calls != [] <==> req.Parsed? && Truthy(req.body.productId) && Truthy(req.body.imageUrl)
    ensures h.calls != [] ==> h.calls == [InsertImage(req.body.productId, req.body.imageUrl)]
    ensures req.Parsed? && h.calls == [] ==> h.response == Fail(BAD_REQUEST, MISSING_FIELDS)
    ensures req.Malformed? ==> h.response == ServerError()
    ensures h.calls != [] ==>
      h.response == (if reply.Rejected? then Fail(SERVER_ERROR, SAVE_FAILED) else Respond(Success))
  {
    if req.Malformed? then Handled(ServerError(), [])
    else if Falsy(req.body.productId) || Falsy(req.body.imageUrl) then
      Handled(Fail(BAD_REQUEST, MISSING_FIELDS), [])
    else
      var call := InsertImage(req.body.productId, req.body.imageUrl);
      match reply
      case Rejected => Handled(Fail(SERVER_ERROR, SAVE_FAILED), [call])
      case Accepted => Handled(Respond(Success), [call])
  }

  /** `DELETE ?id=`: deletes by the image's own id; no product is named, so
      nothing checks which product owns the image. Any reply without an
      error is a success. */
  function Detach(id: Option<string>, reply: WriteReply): (h: Handled)
    ensures WellFormed(h.response) && h.response.setCookie.None?
    ensures h.calls != [] <==> !MissingParam(id)
    ensures h.calls != [] ==> h.calls == [DeleteById(ProductImages, id.value)]
    ensures h.response.status == BAD_REQUEST <==> MissingParam(id)
    ensures h.response.status == OK <==> !MissingParam(id) && reply.Accepted?
  {
    DeleteByParam(ProductImages, id, reply, ID_REQUIRED, DELETE_FAILED)
  }
}

=== FILE: products_route.dfy ===
/** The admin product routes: list with category name and first image,
    create, and delete. */
module ProductsRoute {
  import opened Wrappers
  import opened JsValues
  import opened Records
  import opened Store
  import opened Http
  import opened Slug
  import CategoriesRoute

  datatype CreateInput = CreateInput(name: Value, description: Value, price: Value, categoryId: Value)

  const FETCH_FAILED := "Failed to fetch products"
  const MISSING_FIELDS := "Missing required fields"
  const INSERT_FAILED := "Failed to create product (maybe duplicate name)"
  const ID_REQUIRED := "Product id is required"
  const DELETE_FAILED := "Failed to delete product"

  /** `product.categories?.name || ""`. */
  function CategoryName(category: Option<Category>): string {
    if category.Some? then category.value.name else ""
  }

  function AdminEntry(row: ProductRow): AdminProduct {
    AdminProduct(row.id, row.name, row.slug, row.description, row.price,
                 CategoryName(row.category), FirstImageUrl(row.imageUrls))
  }

  /** `data.map(...)`: one entry per row, in the same order, carrying the
      row's own columns, its category name or "" and its first image URL or
      null. */
  function FormatAdmin(rows: seq<ProductRow>): (r: seq<AdminProduct>)
    ensures |r| == |rows|
    ensures forall i :: 0 <= i < |rows| ==>
      && r[i].id == rows[i].id && r[i].name == rows[i].name && r[i].slug == rows[i].slug
      && r[i].description == rows[i].description && r[i].price == rows[i].price
      && r[i].categoryName == (if rows[i].category.Some? then rows[i].category.value.name else "")
      && r[i].imageUrl == FirstImageUrl(rows[i].imageUrls)
  {
    if rows == [] then [] else [AdminEntry(rows[0])] + FormatAdmin(rows[1..])
  }

  /** `GET`: a fetch error is a 500 with no product list. */
  function List(reply: Reply<seq<ProductRow>>): (h: Handled)
    ensures WellFormed(h.response) && h.response.setCookie.None?
    ensures h.calls == [SelectProducts(None)]
    ensures h.response.status == SERVER_ERROR <==> reply.Failed?
    ensures reply.Failed? ==> !h.response.body.AdminProducts?
    ensures reply.Done? ==> h.response.body == AdminProducts(FormatAdmin(reply.data))
  {
    match reply
    case Failed => Handled(Fail(SERVER_ERROR, FETCH_FAILED), [SelectProducts(None)])
    case Done(rows) => Handled(Respond(AdminProducts(FormatAdmin(rows))), [SelectProducts(None)])
  }

  /** `!name || !price || !categoryId` is false. */
  predicate RequiredPresent(input: CreateInput) {
    Truthy(input.name) && Truthy(input.price) && Truthy(input.categoryId)
  }

  /** `POST { name, description, price, categoryId }`: a falsy required
      field is a 400 before any store call (so a price of 0 is refused and a
      negative one is not); otherwise one insert of the trimmed name, the
      slug, the description or "", the price and the category id. */
  function Create(req: Parsed<CreateInput>, reply: Reply<StoredProduct>): (h: Handled)
    ensures WellFormed(h.response) && h.response.setCookie.None?
    ensures h.calls != [] <==> req.Parsed? && RequiredPresent(req.body) && req.body.name.Str?
    ensures h.calls != [] ==>
      var input := req.body;
      h.calls == [InsertProduct(ProductDraft(Trim(input.name.s), GenerateSlug(input.name.s),
                                             Or(input.description, Str("")), input.price, input.categoryId))]
    ensures req.Parsed? && !RequiredPresent(req.body) ==> h.response == Fail(BAD_REQUEST, MISSING_FIELDS)
    ensures req.Malformed? || (req.Parsed? && RequiredPresent(req.body) && !req.body.name.Str?) ==>
      h.response == ServerError()
    ensures h.calls != [] ==> (h.response.status == BAD_REQUEST <==> reply.Failed?)
    ensures h.calls != [] && reply.Done? ==> h.response.body == ProductCreated(reply.data)
  {
    if req.Malformed? then Handled(ServerError(), [])
    else
      var input := req.body;
      if !RequiredPresent(input) then Handled(Fail(BAD_REQUEST, MISSING_FIELDS), [])
      else if !input.name.Str? then Handled(ServerError(), [])
      else
        var draft := ProductDraft(Trim(input.name.s), GenerateSlug(input.name.s),
                                  Or(input.description, Str("")), input.price, input.categoryId);
        var call := InsertProduct(draft);
        match reply
        case Failed => Handled(Fail(BAD_REQUEST, INSERT_FAILED), [call])
        case Done(product) => Handled(Respond(ProductCreated(product)), [call])
  }

  /** `DELETE ?id=`: a missing id is a 400 with no store call, a delete error
      a 500, and anything else a success. */
  function Delete(id: Option<string>, reply: WriteReply): (h: Handled)
    ensures WellFormed(h.response) && h.response.setCookie.None?
    ensures h.calls != [] <==> !MissingParam(id)
    ensures h.calls != [] ==> h.calls == [DeleteById(Products, id.value)]
    ensures h.response.status == BAD_REQUEST <==> MissingParam(id)
    ensures h.response.status == SERVER_ERROR <==> !MissingParam(id) && reply.Rejected?
  {
    DeleteByParam(Products, id, reply, ID_REQUIRED, DELETE_FAILED)
  }

  /** A create with a missing field never reaches the store. */
  lemma CreateValidatesFirst(req: Parsed<CreateInput>, r1: Reply<StoredProduct>, r2: Reply<StoredProduct>)
    requires req.Parsed? && !RequiredPresent(req.body)
    ensures Create(req, r1) == Create(req, r2)
    ensures Create(req, r1).calls == []
  {
  }

  /** Price 0 is falsy, so it is refused like a missing price. */
  lemma ZeroPriceRefused(name: string, description: Value, categoryId: Value, reply: Reply<StoredProduct>)
    ensures Create(Parsed(CreateInput(Str(name), description, Num(0), categoryId)), reply)
         == Handled(Fail(BAD_REQUEST, MISSING_FIELDS), [])
  {
  }

  /** A negative price is truthy and is inserted as given. */
  lemma NegativePriceInserted(name: string, description: Value, categoryId: Value,
                              price: int, reply: Reply<StoredProduct>)
    requires name != "" && Truthy(categoryId) && price < 0
    ensures var h := Create(Parsed(CreateInput(Str(name), description, Num(price), categoryId)), reply);
            |h.calls| == 1 && h.calls[0].InsertProduct? && h.calls[0].draft.price == Num(price)
  {
  }

  /** Both routes derive the slug with the same function, so a product and a
      category created from one name are written with the same slug. */
  lemma SameSlugAsCategories(name: string, description: Value, price: Value, categoryId: Value,
                             r1: Reply<StoredProduct>, r2: Reply<Category>)
    requires Truthy(price) && Truthy(categoryId) && CategoriesRoute.NameAccepted(Str(name))
    ensures var p := Create(Parsed(CreateInput(Str(name), description, price, categoryId)), r1).calls;
            var c := CategoriesRoute.Create(Parsed(CategoriesRoute.CreateInput(Str(name))), r2).calls;
            |p| == 1 && |c| == 1 && p[0].draft.slug == c[0].slug && p[0].draft.name == c[0].name
  {
  }
}

=== FILE: public_products_route.dfy ===
/** The public product list, optionally narrowed to one category by slug. */
module PublicProductsRoute {
  import opened Wrappers
  import opened JsValues
  import opened Records
  import opened Store
  import opened Http
  import opened Sequences

  const FETCH_FAILED := "Failed to fetch products"

  /** The categories whose slug is `slug`, in store order. */
  function WithSlug(categories: seq<Category>, slug: string): (r: seq<Category>)
    ensures forall c :: c in r <==> c in categories && c.slug == slug
    ensures r == [] <==> forall c :: c in categories ==> c.slug != slug
    ensures |r| <= |categories|
  {
    if categories == [] then []
    else (if categories[0].slug == slug then [categories[0]] else []) + WithSlug(categories[1..], slug)
  }

  /** `categoryId` after the slug lookup: set only when a non-empty
      `category` parameter names exactly one category (`.single()`), and
      that category's id is non-empty (`categoryData?.id || null`). A failed
      lookup, like an unknown slug, leaves it null. */
  function ResolveCategory(param: Option<string>, lookup: Reply<seq<Category>>): (id: Option<string>)
    ensures MissingParam(param) || lookup.Failed? ==> id.None?
    ensures id.Some? <==>
      !MissingParam(param) && lookup.Done? && |WithSlug(lookup.data, param.value)| == 1
      && WithSlug(lookup.data, param.value)[0].id != ""
    ensures id.Some? ==> exists c :: c in lookup.data && c.slug == param.value && c.id == id.value
  {
    if MissingParam(param) then None
    else
      match lookup
      case Failed => None
      case Done(categories) =>
        var found := WithSlug(categories, param.value);
        if |found| == 1 && found[0].id != "" then
          assert found[0] in found;
          Some(found[0].id)
        else None
  }

  /** Each category whose slug matches is kept as often as it occurs, and
      no other category is kept. */
  lemma {:induction false} WithSlugCounts(categories: seq<Category>, slug: string)
    ensures forall c ::
      multiset(WithSlug(categories, slug))[c] == if c.slug == slug then multiset(categories)[c] else 0
  {
    if categories != [] {
      WithSlugCounts(categories[1..], slug);
      assert categories == [categories[0]] + categories[1..];
      assert multiset(categories) == multiset([categories[0]]) + multiset(categories[1..]);
    }
  }

  /** When exactly one category has the slug, the lookup finds that one. */
  lemma {:induction false} WithSlugUnique(categories: seq<Category>, slug: string, i: nat)
    requires i < |categories| && categories[i].slug == slug
    requires forall j :: 0 <= j < |categories| && j != i ==> categories[j].slug != slug
    ensures WithSlug(categories, slug) == [categories[i]]
  {
    var rest := categories[1..];
    if i == 0 {
      forall c | c in rest
        ensures c.slug != slug
      {
        var j :| 0 <= j < |rest| && rest[j] == c;
        assert categories[j + 1] == c;
      }
    } else {
      forall j | 0 <= j < |rest| && j != i - 1
        ensures rest[j].slug != slug
      {
        assert rest[j] == categories[j + 1];
      }
      WithSlugUnique(rest, slug, i - 1);
    }
  }

  /** When two categories have the slug, the lookup keeps both. */
  lemma {:induction false} WithSlugAmbiguous(categories: seq<Category>, slug: string, i: nat, j: nat)
    requires i < j < |categories| && categories[i].slug == slug && categories[j].slug == slug
    ensures |WithSlug(categories, slug)| >= 2
  {
    if i == 0 {
      assert categories[1..][j - 1] == categories[j];
      assert categories[j] in WithSlug(categories[1..], slug);
    } else {
      assert categories[1..][i - 1] == categories[i] && categories[1..][j - 1] == categories[j];
      WithSlugAmbiguous(categories[1..], slug, i - 1, j - 1);
    }
  }

  /** A slug that names exactly one category, with a non-empty id, narrows
      the listing to that category's id. */
  lemma UniqueSlugResolves(slug: string, categories: seq<Category>, i: nat)
    requires slug != "" && i < |categories| && categories[i].slug == slug && categories[i].id != ""
    requires forall j :: 0 <= j < |categories| && j != i ==> categories[j].slug != slug
    ensures ResolveCategory(Some(slug), Done(categories)) == Some(categories[i].id)
  {
    WithSlugUnique(categories, slug, i);
  }

  /** A slug shared by two categories makes `.single()` fail, so the
      listing is not narrowed at all. */
  lemma AmbiguousSlugIgnored(slug: string, categories: seq<Category>, i: nat, j: nat)
    requires i < j < |categories| && categories[i].slug == slug && categories[j].slug == slug
    ensures ResolveCategory(Some(slug), Done(categories)) == None
  {
    WithSlugAmbiguous(categories, slug, i, j);
  }

  /** `.eq("category_id", id)` on the ordered product rows: exactly the rows
      of that category, in their order. */
  function OnlyCategory(rows: seq<ProductRow>, id: string): (r: seq<ProductRow>)
    ensures forall p :: p in r <==> p in rows && p.categoryId == id
    ensures Subsequence(r, rows)
  {
    if rows == [] then []
    else if rows[0].categoryId == id then [rows[0]] + OnlyCategory(rows[1..], id)
    else OnlyCategory(rows[1..], id)
  }

  /** Each row of that category is kept as often as it occurs, and no
      other row is kept. */
  lemma {:induction false} OnlyCategoryCounts(rows: seq<ProductRow>, id: string)
    ensures forall p ::
      multiset(OnlyCategory(rows, id))[p] == if p.categoryId == id then multiset(rows)[p] else 0
  {
    if rows != [] {
      OnlyCategoryCounts(rows[1..], id);
      assert rows == [rows[0]] + rows[1..];
      assert multiset(rows) == multiset([rows[0]]) + multiset(rows[1..]);
    }
  }

  /** The rows the listing query returns for the resolved category id: all
      of them without an id, otherwise every row of that category as often
      as it occurs, and no other. */
  function Selected(rows: seq<ProductRow>, categoryId: Option<string>): (r: seq<ProductRow>)
    ensures categoryId.None? ==> r == rows
    ensures forall p ::
      multiset(r)[p] == if categoryId.None? || p.categoryId == categoryId.value then multiset(rows)[p] else 0
  {
    if categoryId.Some? then OnlyCategoryCounts(rows, categoryId.value); OnlyCategory(rows, categoryId.value) else rows
  }

  function PublicEntry(row: ProductRow): PublicProduct {
    PublicProduct(row.id, row.name, row.slug, row.description, row.price,
                  row.category, FirstImageUrl(row.imageUrls))
  }

  /** `data.map(...)`: one entry per row, in the same order, with the joined
      category passed through and the first image URL or null. */
  function FormatPublic(rows: seq<ProductRow>): (r: seq<PublicProduct>)
    ensures |r| == |rows|
    ensures forall i :: 0 <= i < |rows| ==>
      && r[i].id == rows[i].id && r[i].name == rows[i].name && r[i].slug == rows[i].slug
      && r[i].description == rows[i].description && r[i].price == rows[i].price
      && r[i].category == rows[i].category && r[i].imageUrl == FirstImageUrl(rows[i].imageUrls)
  {
    if rows == [] then [] else [PublicEntry(rows[0])] + FormatPublic(rows[1..])
  }

  /** `GET ?category=slug`. `lookup` is the category table as the slug
      lookup reads it and `reply` the product rows, newest first, as the
      listing query reads them. */
  function List(param: Option<string>, lookup: Reply<seq<Category>>,
                reply: Reply<seq<ProductRow>>): (h: Handled)
    ensures WellFormed(h.response) && h.response.setCookie.None?
    ensures h.calls ==
      (if MissingParam(param) then [] else [SelectCategoryBySlug(param.value)])
      + [SelectProducts(ResolveCategory(param, lookup))]
    ensures h.response.status == SERVER_ERROR <==> reply.Failed?
    ensures reply.Done? ==>
      h.response.body == PublicProducts(FormatPublic(Selected(reply.data, ResolveCategory(param, lookup))))
  {
    var categoryId := ResolveCategory(param, lookup);
    var lookups := if MissingParam(param) then [] else [SelectCategoryBySlug(param.value)];
    var calls := lookups + [SelectProducts(categoryId)];
    match reply
    case Failed => Handled(Fail(SERVER_ERROR, FETCH_FAILED), calls)
    case Done(rows) => Handled(Respond(PublicProducts(FormatPublic(Selected(rows, categoryId)))), calls)
  }

  /** With no (or an empty) `category` parameter there is no lookup and no
      filter: every row is listed, in order. */
  lemma NoParameterNoFilter(param: Option<string>, lookup: Reply<seq<Category>>, rows: seq<ProductRow>)
    requires MissingParam(param)
    ensures var h := List(param, lookup, Done(rows));
            h.calls == [SelectProducts(None)] && h.response.body == PublicProducts(FormatPublic(rows))
  {
  }

  /** A slug that resolves lists exactly the rows of that category, in
      their order, and nothing else. */
  lemma ResolvedSlugFilters(param: Option<string>, lookup: Reply<seq<Category>>,
                            rows: seq<ProductRow>, categoryId: string)
    requires ResolveCategory(param, lookup) == Some(categoryId)
    ensures var items := List(param, lookup, Done(rows)).response.body.items;
            var kept := OnlyCategory(rows, categoryId);
            && |items| == |kept|
            && (forall i :: 0 <= i < |kept| ==> items[i].id == kept[i].id && kept[i].categoryId == categoryId)
            && (forall p :: p in rows && p.categoryId == categoryId ==> p in kept)
  {
    var kept := OnlyCategory(rows, categoryId);
    forall i | 0 <= i < |kept|
      ensures kept[i].categoryId == categoryId
    {
      assert kept[i] in kept;
    }
  }

  /** A slug that names no category leaves the id null, so the whole list
      is returned rather than an empty one. */
  lemma UnknownSlugListsEverything(slug: string, categories: seq<Category>, rows: seq<ProductRow>)
    requires slug != ""
    requires forall c :: c in categories ==> c.slug != slug
    ensures var h := List(Some(slug), Done(categories), Done(rows));
            h.calls == [SelectCategoryBySlug(slug), SelectProducts(None)]
            && h.response.body == PublicProducts(FormatPublic(rows))
            && |h.response.body.items| == |rows|
  {
  }

  /** A failed slug lookup is ignored the same way. */
  lemma FailedLookupListsEverything(slug: string, rows: seq<ProductRow>)
    ensures List(Some(slug), Failed, Done(rows)).response.body == PublicProducts(FormatPublic(rows))
  {
  }
}

=== FILE: records.dfy ===
/** The rows the store holds and returns, and the entries the list routes
    build from them. */
module Records {
  import opened Wrappers
  import opened JsValues

  datatype Category = Category(id: string, name: string, slug: string)

  /** A product row as the list queries return it: the row's own columns,
      its `categories(...)` join (null when it has no category) and the
      `image_url` of its `product_images`, in the order the store returns
      them. */
  datatype ProductRow = ProductRow(
    id: string,
    name: string,
    slug: string,
    description: Value,
    price: Value,
    categoryId: string,
    category: Option<Category>,
    imageUrls: seq<string>)

  /** The columns the create-product route inserts. */
  datatype ProductDraft = ProductDraft(
    name: string,
    slug: string,
    description: Value,
    price: Value,
    categoryId: Value)

  /** A created product as `insert(...).select().single()` returns it. */
  datatype StoredProduct = StoredProduct(id: string, draft: ProductDraft)

  /** The admin credential row. */
  datatype CredentialRow = CredentialRow(id: string, passwordHash: string)

  /** `product_images?.[0]?.image_url || null`: the first image's URL, or
      null when there is no image or the first URL is empty. */
  function FirstImageUrl(urls: seq<string>): (r: Option<string>)
    ensures r.Some? <==> |urls| > 0 && urls[0] != ""
    ensures r.Some? ==> r.value == urls[0]
  {
    if |urls| > 0 && urls[0] != "" then Some(urls[0]) else None
  }

  /** An entry of the admin product list. */
  datatype AdminProduct = AdminProduct(
    id: string,
    name: string,
    slug: string,
    description: Value,
    price: Value,
    categoryName: string,
    imageUrl: Option<string>)

  /** An entry of the public product list. */
  datatype PublicProduct = PublicProduct(
    id: string,
    name: string,
    slug: string,
    description: Value,
    price: Value,
    category: Option<Category>,
    imageUrl: Option<string>)

  /** `bcrypt.compare` and `bcrypt.hash` as given functions: no cryptography
      is modelled. `hash` stands for the one salted hash a request computes. */
  datatype PasswordHasher = PasswordHasher(compare: (string, string) -> bool, hash: string -> string)
}

=== FILE: sequences.dfy ===
/** Order-keeping selection from a sequence. */
module Sequences {

  /** `a` is `b` with some elements left out, the rest kept in order. */
  ghost predicate Subsequence<T>(a: seq<T>, b: seq<T>)
    decreases |b|
  {
    a == [] || (b != [] && ((a[0] == b[0] && Subsequence(a[1..], b[1..])) || Subsequence(a, b[1..])))
  }
}

=== FILE: slug.dfy ===
/** The slug normalizer `generateSlug`, copied identically into the category
    and product admin routes: lower-case, trim, drop disallowed characters,
    turn each whitespace run into `-`, collapse each `-` run into one `-`.

    Case mapping and the whitespace class are the ASCII ones; on ASCII input
    this is exactly the JavaScript pipeline. */
module Slug {
  import opened Sequences

  /** The ASCII members of the JavaScript `\s` class, which are also the
      ASCII characters `String.prototype.trim` removes: tab, line feed,
      vertical tab, form feed, carriage return and space. */
  predicate IsSpace(c: char) {
    c == ' ' || '\t' <= c <= '\r'
  }

  /** ASCII `toLowerCase` of one character. */
  function LowerChar(c: char): char {
    if 'A' <= c <= 'Z' then (c as int + 32) as char else c
  }

  /** `LowerChar` is ASCII lower-casing: the result is never a capital, a
      capital becomes the same letter in lower case, and every other
      character is kept. */
  lemma LowerCharCases(c: char)
    ensures !('A' <= LowerChar(c) <= 'Z')
    ensures LowerChar(c) == c <==> !('A' <= c <= 'Z')
    ensures 'A' <= c <= 'Z' ==>
      'a' <= LowerChar(c) <= 'z' && LowerChar(c) as int - 'a' as int == c as int - 'A' as int
  {
  }

  /** ASCII `toLowerCase`: the same length, no capital left, each capital
      moved 32 code points down to its lower-case letter, and every other
      character kept where it was. */
  function Lower(s: string): (r: string)
    ensures |r| == |s|
    ensures forall i :: 0 <= i < |s| ==> !('A' <= r[i] <= 'Z')
    ensures forall i :: 0 <= i < |s| && !('A' <= s[i] <= 'Z') ==> r[i] == s[i]
    ensures forall i {:trigger r[i]} :: 0 <= i < |s| && 'A' <= s[i] <= 'Z' ==> r[i] as int == s[i] as int + 32
  {
    seq(|s|, i requires 0 <= i < |s| => LowerChar(s[i]))
  }

  /** The two character classes whose runs the pipeline replaces by `-`. */
  datatype RunClass = Spaces | Hyphens

  predicate InClass(c: char, k: RunClass) {
    match k
    case Spaces => IsSpace(c)
    case Hyphens => c == '-'
  }

  /** Drops the leading run of class `k`: what is left is a suffix of `s`
      that does not start with a class character, and only class characters
      were dropped. */
  function DropRun(s: string, k: RunClass): (r: string)
    ensures |r| <= |s| && r == s[|s| - |r|..]
    ensures forall i :: 0 <= i < |s| - |r| ==> InClass(s[i], k)
    ensures r == [] || !InClass(r[0], k)
  {
    if |s| > 0 && InClass(s[0], k) then DropRun(s[1..], k) else s
  }

  /** Drops the trailing whitespace run: what is left is a prefix of `s`
      that does not end in whitespace, and only whitespace was dropped. */
  function TrimEnd(s: string): (r: string)
    ensures |r| <= |s| && r == s[..|r|]
    ensures forall i :: |r| <= i < |s| ==> IsSpace(s[i])
    ensures r == [] || !IsSpace(r[|r| - 1])
  {
    if |s| > 0 && IsSpace(s[|s| - 1]) then TrimEnd(s[..|s| - 1]) else s
  }

  /** `String.prototype.trim`. */
  function Trim(s: string): (r: string)
    ensures |r| <= |s|
    ensures r == [] || (!IsSpace(r[0]) && !IsSpace(r[|r| - 1]))
  {
    TrimEnd(DropRun(s, Spaces))
  }

  /** `trim` removes the leading and the trailing whitespace and nothing
      else: the result is a slice of `s` with only whitespace before and
      after it. */
  lemma {:induction false} TrimRemovesSurroundingSpace(s: string)
    ensures var r := Trim(s);
            exists i :: 0 <= i <= |s| && r <= s[i..] && AllSpace(s[..i]) && AllSpace(s[i + |r|..])
  {
    var d := DropRun(s, Spaces);
    var r := TrimEnd(d);
    var i := |s| - |d|;
    assert s[i..] == d;
    var trail := s[i + |r|..];
    forall k | 0 <= k < |trail|
      ensures IsSpace(trail[k])
    {
      assert trail[k] == d[|r| + k];
    }
    assert AllSpace(s[..i]) && AllSpace(trail);
  }

  predicate AllSpace(s: string) {
    forall k :: 0 <= k < |s| ==> IsSpace(s[k])
  }

  /** The characters `/[^a-z0-9\s-]/g` leaves in place. */
  predicate Allowed(c: char) {
    'a' <= c <= 'z' || '0' <= c <= '9' || IsSpace(c) || c == '-'
  }

  /** `replace(/[^a-z0-9\s-]/g, "")`: only allowed characters of `s` are
      left; `DropDisallowedKeepsAllowed` shows that all of them are, in their
      order. */
  function DropDisallowed(s: string): (r: string)
    ensures |r| <= |s|
    ensures forall c :: c in r ==> c in s && Allowed(c)
  {
    if s == [] then []
    else
      var rest := DropDisallowed(s[1..]);
      assert s == [s[0]] + s[1..];
      if Allowed(s[0]) then [s[0]] + rest else rest
  }

  /** `replace(/\s+/g, "-")` for `Spaces` and `replace(/-+/g, "-")` for
      `Hyphens`: every maximal run of class `k` becomes a single `-`. The
      result holds no character of class `k` other than `-`, and when `k`
      is `Hyphens` it never holds two `-` in a row. */
  function CollapseRuns(s: string, k: RunClass): (r: string)
    ensures |r| <= |s|
    ensures forall c :: c in r ==> c == '-' || (c in s && !InClass(c, k))
    ensures |s| > 0 ==> |r| > 0 && r[0] == (if InClass(s[0], k) then '-' else s[0])
    ensures k == Hyphens ==> NoDoubleHyphen(r)
    decreases |s|
  {
    if s == [] then []
    else if InClass(s[0], k) then
      var dropped := DropRun(s[1..], k);
      var rest := CollapseRuns(dropped, k);
      SuffixMembers(s[1..], dropped);
      SuffixMembers(s, s[1..]);
      if k == Hyphens then NoDoubleHyphenCons('-', rest); "-" + rest else "-" + rest
    else
      var rest := CollapseRuns(s[1..], k);
      SuffixMembers(s, s[1..]);
      if k == Hyphens then NoDoubleHyphenCons(s[0], rest); [s[0]] + rest else [s[0]] + rest
  }

  lemma SuffixMembers(s: string, t: string)
    requires |t| <= |s| && t == s[|s| - |t|..]
    ensures forall c :: c in t ==> c in s
  {
    forall c | c in t
      ensures c in s
    {
      var i :| 0 <= i < |t| && t[i] == c;
      assert s[|s| - |t| + i] == c;
    }
  }

  lemma NoDoubleHyphenCons(c: char, t: string)
    requires NoDoubleHyphen(t)
    requires c != '-' || t == [] || t[0] != '-'
    ensures NoDoubleHyphen([c] + t)
  {
    var s := [c] + t;
    forall i | 0 < i < |s|
      ensures s[i - 1] != '-' || s[i] != '-'
    {
      if i > 1 { assert s[i - 1] == t[i - 2] && s[i] == t[i - 1]; }
    }
  }

  /** `generateSlug(name)`. */
  function GenerateSlug(name: string): (slug: string)
    ensures forall c :: c in slug ==> IsSlugChar(c)
    ensures NoDoubleHyphen(slug)
  {
    CollapseRuns(CollapseRuns(DropDisallowed(Trim(Lower(name))), Spaces), Hyphens)
  }

  predicate IsSlugChar(c: char) {
    'a' <= c <= 'z' || '0' <= c <= '9' || c == '-'
  }

  predicate NoDoubleHyphen(s: string) {
    forall i :: 0 < i < |s| ==> s[i - 1] != '-' || s[i] != '-'
  }

  /** The strings `GenerateSlug` can produce. */
  predicate IsSlug(s: string) {
    (forall c :: c in s ==> IsSlugChar(c)) && NoDoubleHyphen(s)
  }

  /** The letters and digits of `s`, in order. */
  function LettersAndDigits(s: string): string {
    if s == [] then []
    else if 'a' <= s[0] <= 'z' || '0' <= s[0] <= '9' then [s[0]] + LettersAndDigits(s[1..])
    else LettersAndDigits(s[1..])
  }

  // ---------------------------------------------------------------------
  // Every stage is the identity on slug-shaped strings.

  /** Lower-casing leaves a string without ASCII capitals as it is. */
  lemma LowerFixesUncased(s: string)
    requires forall c :: c in s ==> !('A' <= c <= 'Z')
    ensures Lower(s) == s
  {
    forall i | 0 <= i < |s|
      ensures Lower(s)[i] == s[i]
    {
      assert s[i] in s;
    }
  }

  lemma {:induction false} DropDisallowedFixesAllowed(s: string)
    requires forall c :: c in s ==> Allowed(c)
    ensures DropDisallowed(s) == s
  {
    if s != [] {
      assert s[0] in s;
      assert forall c :: c in s[1..] ==> c in s;
      DropDisallowedFixesAllowed(s[1..]);
    }
  }

  lemma {:induction false} CollapseSpacesFixesSpaceless(s: string)
    requires forall c :: c in s ==> !IsSpace(c)
    ensures CollapseRuns(s, Spaces) == s
  {
    if s != [] {
      assert s[0] in s;
      assert forall c :: c in s[1..] ==> c in s;
      CollapseSpacesFixesSpaceless(s[1..]);
    }
  }

  lemma NoDoubleHyphenTail(s: string)
    requires s != [] && NoDoubleHyphen(s)
    ensures NoDoubleHyphen(s[1..])
  {
    var t := s[1..];
    forall i | 0 < i < |t|
      ensures t[i - 1] != '-' || t[i] != '-'
    {
      assert t[i - 1] == s[i] && t[i] == s[i + 1];
    }
  }

  lemma {:induction false} CollapseHyphensFixesSingleHyphens(s: string)
    requires NoDoubleHyphen(s)
    ensures CollapseRuns(s, Hyphens) == s
  {
    if s != [] {
      var t := s[1..];
      assert CollapseRuns(t, Hyphens) == t by {
        NoDoubleHyphenTail(s);
        CollapseHyphensFixesSingleHyphens(t);
      }
      if s[0] == '-' {
        assert DropRun(t, Hyphens) == t by {
          if t != [] { assert s[0] == '-' && s[1] == t[0]; }
        }
      }
      assert s == [s[0]] + t;
    }
  }

  /** Every slug-shaped string is its own slug. */
  lemma {:induction false} SlugFixesSlugs(s: string)
    requires IsSlug(s)
    ensures GenerateSlug(s) == s
  {
    FiltersFixSlugs(s);
    CollapseSpacesFixesSpaceless(s);
    CollapseHyphensFixesSingleHyphens(s);
  }

  /** The stages before the run passes leave a slug-shaped string as it is. */
  lemma {:induction false} FiltersFixSlugs(s: string)
    requires IsSlug(s)
    ensures DropDisallowed(Trim(Lower(s))) == s
  {
    assert Lower(s) == s by { LowerFixesUncased(s); }
    assert Trim(s) == s by {
      if s != [] { assert s[0] in s && s[|s| - 1] in s; }
      TrimFixesPadded(s);
    }
    assert DropDisallowed(s) == s by { DropDisallowedFixesAllowed(s); }
  }

  /** `trim` leaves a string that neither starts nor ends with whitespace
      as it is. */
  lemma TrimFixesPadded(s: string)
    requires s == [] || (!IsSpace(s[0]) && !IsSpace(s[|s| - 1]))
    ensures Trim(s) == s
  {
    if |s| > 0 {
      assert DropRun(s, Spaces) == s;
      assert TrimEnd(s) == s;
    }
  }

  /** `generateSlug` is idempotent. */
  lemma SlugIdempotent(name: string)
    ensures GenerateSlug(GenerateSlug(name)) == GenerateSlug(name)
  {
    SlugFixesSlugs(GenerateSlug(name));
  }

  /** The slugs are exactly the slug-shaped strings. */
  lemma SlugImage(s: string)
    ensures IsSlug(s) <==> exists name :: GenerateSlug(name) == s
  {
    if IsSlug(s) {
      SlugFixesSlugs(s);
    }
  }

  // ---------------------------------------------------------------------
  // Case and surrounding whitespace do not matter.

  /** Lower-casing the name first does not change its slug. */
  lemma SlugIgnoresCase(name: string)
    ensures GenerateSlug(Lower(name)) == GenerateSlug(name)
  {
    LowerIdempotent(name);
  }

  lemma LowerIdempotent(s: string)
    ensures Lower(Lower(s)) == Lower(s)
  {
    var l := Lower(s);
    forall i | 0 <= i < |s|
      ensures Lower(l)[i] == l[i]
    {
      assert l[i] == LowerChar(s[i]);
    }
  }

  lemma {:induction false} LowerCommutesWithDropSpaces(s: string)
    ensures DropRun(Lower(s), Spaces) == Lower(DropRun(s, Spaces))
  {
    if |s| > 0 {
      var l := Lower(s);
      assert l[0] == LowerChar(s[0]);
      if IsSpace(s[0]) {
        LowerSlice(s, 1, |s|);
        assert l[1..] == Lower(s[1..]) by {
          assert l[1..] == l[1..|s|] && s[1..] == s[1..|s|];
        }
        assert DropRun(l, Spaces) == DropRun(l[1..], Spaces);
        LowerCommutesWithDropSpaces(s[1..]);
      } else {
        assert DropRun(l, Spaces) == l;
      }
    }
  }

  /** Lower-casing commutes with taking a slice. */
  lemma LowerSlice(s: string, i: nat, j: nat)
    requires i <= j <= |s|
    ensures Lower(s)[i..j] == Lower(s[i..j])
  {
    var l := Lower(s);
    var t := s[i..j];
    forall n | 0 <= n < j - i
      ensures l[i..j][n] == Lower(t)[n]
    {
      assert t[n] == s[i + n];
    }
  }

  lemma {:induction false} LowerCommutesWithTrimEnd(s: string)
    ensures TrimEnd(Lower(s)) == Lower(TrimEnd(s))
  {
    if |s| > 0 {
      var n := |s| - 1;
      LowerKeepsSpace(s, n);
      if IsSpace(s[n]) {
        calc {
          TrimEnd(Lower(s));
          TrimEnd(Lower(s)[..n]);
          { LowerPrefix(s, n); }
          TrimEnd(Lower(s[..n]));
          { LowerCommutesWithTrimEnd(s[..n]); }
          Lower(TrimEnd(s[..n]));
        }
      }
    }
  }

  lemma LowerKeepsSpace(s: string, i: nat)
    requires i < |s|
    ensures IsSpace(Lower(s)[i]) <==> IsSpace(s[i])
  {
  }

  lemma LowerPrefix(s: string, n: nat)
    requires n <= |s|
    ensures Lower(s)[..n] == Lower(s[..n])
  {
    LowerSlice(s, 0, n);
    assert Lower(s)[..n] == Lower(s)[0..n] && s[..n] == s[0..n];
  }

  lemma TrimIdempotent(s: string)
    ensures Trim(Trim(s)) == Trim(s)
  {
    var t := Trim(s);
    if |t| > 0 {
      assert DropRun(t, Spaces) == t;
      assert TrimEnd(t) == t;
    }
  }

  /** The leading run of `s + t` is that of `s`, continued into `t` when
      it covers all of `s`. */
  lemma {:induction false} DropRunConcat(s: string, t: string, k: RunClass)
    ensures DropRun(s + t, k) ==
      (if DropRun(s, k) == [] then DropRun(t, k) else DropRun(s, k) + t)
  {
    if s == [] {
      assert s + t == t;
    } else {
      assert (s + t)[0] == s[0];
      assert (s + t)[1..] == s[1..] + t;
      if InClass(s[0], k) {
        DropRunConcat(s[1..], t, k);
      }
    }
  }

  /** A whitespace character appended to the name is trimmed away again. */
  lemma TrimIgnoresTrailingSpace(s: string, c: char)
    requires IsSpace(c)
    ensures Trim(s + [c]) == Trim(s)
  {
    var d := DropRun(s, Spaces);
    DropRunConcat(s, [c], Spaces);
    if d == [] {
      assert DropRun([c], Spaces) == [] by { assert [c][1..] == []; }
    } else {
      assert (d + [c])[..|d|] == d;
    }
  }

  /** Trimming the name first does not change its slug, so "Coolers " and
      "Coolers" get the same slug. */
  lemma SlugIgnoresSurroundingSpace(name: string)
    ensures GenerateSlug(Trim(name)) == GenerateSlug(name)
  {
    LowerCommutesWithDropSpaces(name);
    LowerCommutesWithTrimEnd(DropRun(name, Spaces));
    TrimIdempotent(Lower(name));
  }

  // ---------------------------------------------------------------------
  // The slug keeps exactly the letters and digits of the lower-cased name.

  lemma {:induction false} LettersAndDigitsAppend(a: string, b: string)
    ensures LettersAndDigits(a + b) == LettersAndDigits(a) + LettersAndDigits(b)
  {
    if a == [] {
      assert a + b == b;
    } else {
      var c := a[0];
      var kept := if 'a' <= c <= 'z' || '0' <= c <= '9' then [c] else [];
      calc {
        LettersAndDigits(a + b);
        { assert (a + b)[0] == c && (a + b)[1..] == a[1..] + b; }
        kept + LettersAndDigits(a[1..] + b);
        { LettersAndDigitsAppend(a[1..], b); }
        kept + (LettersAndDigits(a[1..]) + LettersAndDigits(b));
        (kept + LettersAndDigits(a[1..])) + LettersAndDigits(b);
        LettersAndDigits(a) + LettersAndDigits(b);
      }
    }
  }

  lemma {:induction false} DropRunKeepsLettersAndDigits(s: string, k: RunClass)
    ensures LettersAndDigits(DropRun(s, k)) == LettersAndDigits(s)
  {
    if |s| > 0 && InClass(s[0], k) {
      DropRunKeepsLettersAndDigits(s[1..], k);
    }
  }

  lemma {:induction false} TrimEndKeepsLettersAndDigits(s: string)
    ensures LettersAndDigits(TrimEnd(s)) == LettersAndDigits(s)
  {
    if |s| > 0 && IsSpace(s[|s| - 1]) {
      var p := s[..|s| - 1];
      assert s == p + [s[|s| - 1]];
      LettersAndDigitsAppend(p, [s[|s| - 1]]);
      TrimEndKeepsLettersAndDigits(p);
    }
  }

  lemma {:induction false} DropDisallowedKeepsLettersAndDigits(s: string)
    ensures LettersAndDigits(DropDisallowed(s)) == LettersAndDigits(s)
  {
    if s != [] {
      DropDisallowedKeepsLettersAndDigits(s[1..]);
    }
  }

  lemma {:induction false} CollapseRunsKeepsLettersAndDigits(s: string, k: RunClass)
    ensures LettersAndDigits(CollapseRuns(s, k)) == LettersAndDigits(s)
    decreases |s|
  {
    if s != [] {
      if InClass(s[0], k) {
        CollapseRunsKeepsLettersAndDigits(DropRun(s[1..], k), k);
        DropRunKeepsLettersAndDigits(s[1..], k);
      } else {
        CollapseRunsKeepsLettersAndDigits(s[1..], k);
      }
    }
  }

  /** The slug holds the letters and digits of the lower-cased name, all of
      them and in their order; everything else in it is `-`. */
  lemma SlugKeepsLettersAndDigits(name: string)
    ensures LettersAndDigits(GenerateSlug(name)) == LettersAndDigits(Lower(name))
  {
    var l := Lower(name);
    DropRunKeepsLettersAndDigits(l, Spaces);
    TrimEndKeepsLettersAndDigits(DropRun(l, Spaces));
    DropDisallowedKeepsLettersAndDigits(Trim(l));
    var d := DropDisallowed(Trim(l));
    CollapseRunsKeepsLettersAndDigits(d, Spaces);
    CollapseRunsKeepsLettersAndDigits(CollapseRuns(d, Spaces), Hyphens);
  }

  // ---------------------------------------------------------------------
  // The filter and the run passes keep every other character, in order.

  /** The filter keeps exactly the allowed characters: the result is a
      subsequence of `s`, and it holds each allowed character as often as
      `s` does. */
  lemma {:induction false} DropDisallowedKeepsAllowed(s: string)
    ensures Subsequence(DropDisallowed(s), s)
    ensures forall c :: Allowed(c) ==> multiset(DropDisallowed(s))[c] == multiset(s)[c]
  {
    if s != [] {
      DropDisallowedKeepsAllowed(s[1..]);
      assert s == [s[0]] + s[1..];
      assert multiset(s) == multiset([s[0]]) + multiset(s[1..]);
      if Allowed(s[0]) {
        var r := DropDisallowed(s);
        assert r[0] == s[0] && r[1..] == DropDisallowed(s[1..]);
        assert multiset(r) == multiset([s[0]]) + multiset(DropDisallowed(s[1..]));
      }
    }
  }

  /** The characters of `s` that a pass over class `k` leaves alone: those
      neither of class `k` nor `-`, in their order. */
  function Untouched(s: string, k: RunClass): string {
    if s == [] then []
    else if !InClass(s[0], k) && s[0] != '-' then [s[0]] + Untouched(s[1..], k)
    else Untouched(s[1..], k)
  }

  lemma {:induction false} DropRunKeepsUntouched(s: string, k: RunClass)
    ensures Untouched(DropRun(s, k), k) == Untouched(s, k)
  {
    if |s| > 0 && InClass(s[0], k) {
      DropRunKeepsUntouched(s[1..], k);
    }
  }

  /** A run pass keeps every character outside its class other than `-`,
      all of them and in their order: it only rewrites runs. */
  lemma {:induction false} CollapseRunsKeepsUntouched(s: string, k: RunClass)
    ensures Untouched(CollapseRuns(s, k), k) == Untouched(s, k)
    decreases |s|
  {
    if s != [] {
      if InClass(s[0], k) {
        CollapseRunsKeepsUntouched(DropRun(s[1..], k), k);
        DropRunKeepsUntouched(s[1..], k);
      } else {
        CollapseRunsKeepsUntouched(s[1..], k);
      }
    }
  }

  // ---------------------------------------------------------------------
  // Whitespace between words becomes one `-`.

  /** The filter works character by character. */
  lemma {:induction false} DropDisallowedAppend(a: string, b: string)
    ensures DropDisallowed(a + b) == DropDisallowed(a) + DropDisallowed(b)
  {
    if a == [] {
      assert a + b == b;
    } else {
      var kept := if Allowed(a[0]) then [a[0]] else [];
      calc {
        DropDisallowed(a + b);
        { assert (a + b)[0] == a[0] && (a + b)[1..] == a[1..] + b; }
        kept + DropDisallowed(a[1..] + b);
        { DropDisallowedAppend(a[1..], b); }
        kept + (DropDisallowed(a[1..]) + DropDisallowed(b));
        (kept + DropDisallowed(a[1..])) + DropDisallowed(b);
        DropDisallowed(a) + DropDisallowed(b);
      }
    }
  }

  /** A prefix with no character of class `k` passes through the pass over
      `k` unchanged. */
  lemma {:induction false} CollapseRunsKeepsPrefix(a: string, x: string, k: RunClass)
    requires forall i :: 0 <= i < |a| ==> !InClass(a[i], k)
    ensures CollapseRuns(a + x, k) == a + CollapseRuns(x, k)
  {
    if a == [] {
      assert a + x == x;
    } else {
      CollapseRunsOtherHead(a, x, k);
      CollapseRunsKeepsPrefix(a[1..], x, k);
      HeadThenTail(a, CollapseRuns(x, k));
    }
  }

  lemma HeadThenTail(a: string, y: string)
    requires a != []
    ensures [a[0]] + (a[1..] + y) == a + y
  {
    assert a == [a[0]] + a[1..];
  }

  /** A run of class `k` followed by something that does not continue it
      becomes one `-`. */
  lemma {:induction false} CollapseRunThenOther(w: string, b: string, k: RunClass)
    requires w != [] && forall i :: 0 <= i < |w| ==> InClass(w[i], k)
    requires b == [] || !InClass(b[0], k)
    ensures CollapseRuns(w + b, k) == "-" + CollapseRuns(b, k)
  {
    CollapseRunsClassHead(w, b, k);
    RestOfRunDrops(w, b, k);
  }

  lemma {:induction false} CollapseRunsClassHead(w: string, b: string, k: RunClass)
    requires w != [] && InClass(w[0], k)
    ensures CollapseRuns(w + b, k) == "-" + CollapseRuns(DropRun(w[1..] + b, k), k)
  {
    assert (w + b)[0] == w[0] && (w + b)[1..] == w[1..] + b;
  }

  /** After the first character of a run, the rest of the run is dropped up
      to what follows it. */
  lemma {:induction false} RestOfRunDrops(w: string, b: string, k: RunClass)
    requires w != [] && forall i :: 0 <= i < |w| ==> InClass(w[i], k)
    requires b == [] || !InClass(b[0], k)
    ensures DropRun(w[1..] + b, k) == b
  {
    assert (w + b)[0] == w[0] && (w + b)[1..] == w[1..] + b;
    assert DropRun(w, k) == [];
    DropRunConcat(w, b, k);
  }

  lemma {:induction false} CollapseRunsOtherHead(a: string, x: string, k: RunClass)
    requires a != [] && !InClass(a[0], k)
    ensures CollapseRuns(a + x, k) == [a[0]] + CollapseRuns(a[1..] + x, k)
  {
    assert (a + x)[0] == a[0] && (a + x)[1..] == a[1..] + x;
  }

  /** A whole run of class `k` collapses to one `-`. */
  lemma {:induction false} CollapseRunsOfRun(w: string, k: RunClass)
    requires w != [] && forall i :: 0 <= i < |w| ==> InClass(w[i], k)
    ensures CollapseRuns(w, k) == "-"
  {
    assert w + [] == w;
    CollapseRunThenOther(w, [], k);
  }

  /** Joining two strings without adjacent `-` by one `-` makes none, as
      long as neither has a `-` at the joint. */
  lemma {:induction false} NoDoubleHyphenJoin(a: string, b: string)
    requires NoDoubleHyphen(a) && NoDoubleHyphen(b)
    requires a == [] || a[|a| - 1] != '-'
    requires b == [] || b[0] != '-'
    ensures NoDoubleHyphen(a + "-" + b)
  {
    var s := a + "-" + b;
    forall i | 0 < i < |s|
      ensures s[i - 1] != '-' || s[i] != '-'
    {
      if i < |a| {
        assert s[i - 1] == a[i - 1] && s[i] == a[i];
      } else if i == |a| {
        assert s[i - 1] == a[|a| - 1];
      } else if i == |a| + 1 {
        assert s[i] == b[0];
      } else {
        assert s[i - 1] == b[i - |a| - 2] && s[i] == b[i - |a| - 1];
      }
    }
  }

  lemma SlugHasNoSpace(s: string)
    requires IsSlug(s)
    ensures forall i :: 0 <= i < |s| ==> !IsSpace(s[i])
  {
    forall i | 0 <= i < |s|
      ensures !IsSpace(s[i])
    {
      assert s[i] in s;
    }
  }

  /** The characters of a slug-shaped string and of a whitespace run are
      all allowed and none is an ASCII capital. */
  lemma JoinedCharacters(a: string, w: string, b: string)
    requires IsSlug(a) && IsSlug(b) && AllSpace(w)
    ensures forall c :: c in a + w + b ==> Allowed(c) && !('A' <= c <= 'Z')
  {
    forall c | c in a + w + b
      ensures Allowed(c) && !('A' <= c <= 'Z')
    {
      if c in w {
        var i :| 0 <= i < |w| && w[i] == c;
      }
    }
  }

  /** Words joined by whitespace: a whitespace run between two slug-shaped
      words that do not end or start with `-` becomes exactly one `-`, and
      the words are kept as they are. */
  lemma {:induction false} SlugJoinsWords(a: string, w: string, b: string)
    requires IsSlug(a) && IsSlug(b) && a != [] && b != []
    requires a[|a| - 1] != '-' && b[0] != '-'
    requires w != [] && AllSpace(w)
    ensures GenerateSlug(a + w + b) == a + "-" + b
  {
    JoinedFiltersFix(a, w, b);
    SpacesBetweenSlugsCollapse(a, w, b);
    NoDoubleHyphenJoin(a, b);
    CollapseHyphensFixesSingleHyphens(a + "-" + b);
  }

  /** The stages before the run passes leave slug-shaped words joined by
      whitespace as they are. */
  lemma {:induction false} JoinedFiltersFix(a: string, w: string, b: string)
    requires IsSlug(a) && IsSlug(b) && a != [] && b != []
    requires AllSpace(w)
    ensures DropDisallowed(Trim(Lower(a + w + b))) == a + w + b
  {
    var s := a + w + b;
    JoinedCharacters(a, w, b);
    LowerFixesUncased(s);
    assert a[0] in a && b[|b| - 1] in b;
    assert s[0] == a[0] && s[|s| - 1] == b[|b| - 1];
    TrimFixesPadded(s);
    DropDisallowedFixesAllowed(s);
  }

  /** The whitespace pass turns the run between two slug-shaped words into
      one `-`. */
  lemma {:induction false} SpacesBetweenSlugsCollapse(a: string, w: string, b: string)
    requires IsSlug(a) && IsSlug(b) && b != []
    requires w != [] && AllSpace(w)
    ensures CollapseRuns(a + w + b, Spaces) == a + "-" + b
  {
    assert a + w + b == a + (w + b);
    SlugHasNoSpace(a);
    CollapseRunsKeepsPrefix(a, w + b, Spaces);
    SpaceRunBeforeSlug(w, b);
  }

  /** A whitespace run in front of a slug becomes one `-`. */
  lemma SpaceRunBeforeSlug(w: string, b: string)
    requires IsSlug(b) && b != []
    requires w != [] && AllSpace(w)
    ensures CollapseRuns(w + b, Spaces) == "-" + b
  {
    assert b[0] in b;
    CollapseRunThenOther(w, b, Spaces);
    CollapseSpacesFixesSpaceless(b);
  }

  /** Trailing punctuation after a space leaves a trailing `-`: trimming
      runs before the filter, so the whitespace before the punctuation is
      still there when the punctuation is dropped. */
  lemma {:induction false} TrailingPunctuationLeavesHyphen(a: string, w: string, p: string)
    requires IsSlug(a) && a != [] && a[|a| - 1] != '-'
    requires w != [] && AllSpace(w)
    requires p != [] && forall i :: 0 <= i < |p| ==> !Allowed(LowerChar(p[i]))
    ensures GenerateSlug(a + w + p) == a + "-"
  {
    PunctuationFiltered(a, w, p);
    SpaceRunLeavesHyphen(a, w);
  }

  /** Lower-casing and trimming keep the trailing punctuation, and the
      filter then drops it, leaving the word and the whitespace. */
  lemma {:induction false} PunctuationFiltered(a: string, w: string, p: string)
    requires IsSlug(a) && a != []
    requires AllSpace(w)
    requires p != [] && forall i :: 0 <= i < |p| ==> !Allowed(LowerChar(p[i]))
    ensures DropDisallowed(Trim(Lower(a + w + p))) == a + w
  {
    PunctuationUncased(a, w, p);
    var s := a + w + p;
    assert Trim(s) == s by {
      assert a[0] in a;
      assert s[0] == a[0] && s[|s| - 1] == p[|p| - 1];
      TrimFixesPadded(s);
    }
    PunctuationDropped(a, w, p);
  }

  /** A word, whitespace and punctuation have no capital to lower. */
  lemma {:induction false} PunctuationUncased(a: string, w: string, p: string)
    requires IsSlug(a) && AllSpace(w)
    requires forall i :: 0 <= i < |p| ==> !Allowed(LowerChar(p[i]))
    ensures Lower(a + w + p) == a + w + p
  {
    var s := a + w + p;
    JoinedCharacters(a, w, []);
    forall c | c in s
      ensures !('A' <= c <= 'Z')
    {
      if c in p {
        var i :| 0 <= i < |p| && p[i] == c;
        assert !Allowed(LowerChar(p[i]));
      } else {
        assert c in a + w + [];
      }
    }
    LowerFixesUncased(s);
  }

  /** The filter drops the punctuation and keeps the word and whitespace. */
  lemma {:induction false} PunctuationDropped(a: string, w: string, p: string)
    requires IsSlug(a) && AllSpace(w)
    requires forall i :: 0 <= i < |p| ==> !Allowed(LowerChar(p[i]))
    ensures DropDisallowed(a + w + p) == a + w
  {
    assert forall i :: 0 <= i < |p| ==> LowerChar(p[i]) == p[i] && !Allowed(p[i]);
    JoinedCharacters(a, w, []);
    DropDisallowedAppend(a + w, p);
    DropDisallowedOfDisallowed(p);
    assert forall c :: c in a + w ==> c in a + w + [];
    DropDisallowedFixesAllowed(a + w);
  }

  /** The two run passes turn a word followed by whitespace into the word
      and one `-`. */
  lemma {:induction false} SpaceRunLeavesHyphen(a: string, w: string)
    requires IsSlug(a) && a != [] && a[|a| - 1] != '-'
    requires w != [] && AllSpace(w)
    ensures CollapseRuns(CollapseRuns(a + w, Spaces), Hyphens) == a + "-"
  {
    assert CollapseRuns(a + w, Spaces) == a + "-" by {
      SlugHasNoSpace(a);
      CollapseRunsKeepsPrefix(a, w, Spaces);
      CollapseRunsOfRun(w, Spaces);
    }
    NoDoubleHyphenJoin(a, []);
    assert a + "-" + [] == a + "-";
    CollapseHyphensFixesSingleHyphens(a + "-");
  }

  // ---------------------------------------------------------------------
  // Concrete cases.

  lemma {:induction false} DropDisallowedOfDisallowed(s: string)
    requires forall i :: 0 <= i < |s| ==> !Allowed(s[i])
    ensures DropDisallowed(s) == []
  {
    if s != [] {
      DropDisallowedOfDisallowed(s[1..]);
    }
  }

  /** A name none of whose characters survives lower-casing and the
      character filter has the empty slug. */
  lemma {:induction false} NothingAllowedEmptySlug(name: string)
    requires forall i :: 0 <= i < |name| ==> !Allowed(LowerChar(name[i]))
    ensures GenerateSlug(name) == []
  {
    var l := Lower(name);
    assert Trim(l) == l by {
      if l != [] {
        assert !Allowed(LowerChar(name[0])) && !Allowed(LowerChar(name[|l| - 1]));
      }
      TrimFixesPadded(l);
    }
    assert DropDisallowed(l) == [] by {
      assert forall i :: 0 <= i < |l| ==> !Allowed(l[i]);
      DropDisallowedOfDisallowed(l);
    }
    calc {
      GenerateSlug(name);
      CollapseRuns(CollapseRuns(DropDisallowed(Trim(l)), Spaces), Hyphens);
      CollapseRuns(CollapseRuns([], Spaces), Hyphens);
    }
  }

  /** A slug may end in `-`: the trailing `!` of "a !" is dropped only
      after trimming, so the space before it survives and becomes `-`. */
  lemma TrailingHyphenExample()
    ensures GenerateSlug("a !") == "a-"
  {
    assert "a !" == "a" + " " + "!";
    TrailingPunctuationLeavesHyphen("a", " ", "!");
  }

  /** Nothing strips hyphens from the ends: a slug-shaped name that starts
      and ends in `-` keeps them. */
  lemma EdgeHyphensKept()
    ensures GenerateSlug("-a-") == "-a-"
  {
    SlugFixesSlugs("-a-");
  }

  /** A name of punctuation only has the empty slug. */
  lemma EmptySlugExample()
    ensures GenerateSlug("!!") == ""
  {
    NothingAllowedEmptySlug("!!");
  }
}

=== FILE: store.dfy ===
/** The calls a route makes to the hosted database and object storage, and
    the replies it gets. The store itself is a collaborator: its replies are
    inputs to the handlers. */
module Store {
  import opened Wrappers
  import opened JsValues
  import opened Records

  datatype Table = Categories | Products | ProductImages

  /** The reply to a read or to an insert that selects the new row. */
  datatype Reply<T> = Done(data: T) | Failed

  /** The reply to a write that returns no data. */
  datatype WriteReply = Accepted | Rejected

  /** One store call, with exactly the values it sends. */
  datatype Call =
    | SelectCategories
    | InsertCategory(name: string, slug: string)
    | UpdateCategory(categoryId: Value, name: string, slug: string)
    | DeleteById(table: Table, rowId: string)
    | SelectProducts(categoryFilter: Option<string>)
    | SelectCategoryBySlug(slug: string)
    | InsertProduct(draft: ProductDraft)
    | InsertImage(productId: Value, imageUrl: Value)
    | UploadObject(bucket: string, objectName: string)
    | SelectCredential
    | UpdatePasswordHash(credentialId: string, passwordHash: string)
}

=== FILE: upload_route.dfy ===
/** The admin image upload: the stored object's name is a fresh id, a dot,
    and the uploaded file's extension. */
module UploadRoute {
  import opened Wrappers
  import opened JsValues
  import opened Store
  import opened Http

  /** `formData.get("file")`: absent (null), a plain text field, or a file
      with its name. The file's bytes and content type travel to the store
      unchanged and are not modelled. */
  datatype FormFile = NoField | TextField(text: string) | FileField(fileName: string)

  const BUCKET := "product-images"
  const NO_FILE := "No file uploaded"
  const UPLOAD_FAILED := "Upload failed"

  /** `Join(parts, sep)` is `parts.join(sep)`. */
  function Join(parts: seq<string>, sep: char): string
    requires |parts| >= 1
  {
    if |parts| == 1 then parts[0] else parts[0] + [sep] + Join(parts[1..], sep)
  }

  /** `s.split(sep)`: the pieces between separators, none holding `sep`;
      there is one piece exactly when `s` has no separator. */
  function Split(s: string, sep: char): (parts: seq<string>)
    ensures |parts| >= 1
    ensures forall i :: 0 <= i < |parts| ==> sep !in parts[i]
    ensures |parts| == 1 <==> sep !in s
  {
    if s == [] then [[]]
    else
      var rest := Split(s[1..], sep);
      assert s == [s[0]] + s[1..];
      if s[0] == sep then [[]] + rest
      else [[s[0]] + rest[0]] + rest[1..]
  }

  /** Joining the pieces with the separator gives the string back. */
  lemma {:induction false} SplitJoin(s: string, sep: char)
    ensures Join(Split(s, sep), sep) == s
  {
    if s != [] {
      var rest := Split(s[1..], sep);
      SplitJoin(s[1..], sep);
      var parts := Split(s, sep);
      if s[0] == sep {
        assert parts[1..] == rest;
      } else {
        assert parts[1..] == rest[1..];
        if |rest| > 1 {
          assert Join(rest, sep) == rest[0] + [sep] + Join(rest[1..], sep);
        }
      }
    }
  }

  function Last(parts: seq<string>): string
    requires |parts| >= 1
  {
    parts[|parts| - 1]
  }

  /** `file.name.split(".").pop()`: the text after the last `.`, that is a
      dot-free suffix of the name that is the whole name or follows a `.`. */
  function Extension(fileName: string): (ext: string)
    ensures '.' !in ext
    ensures |ext| <= |fileName| && fileName[|fileName| - |ext|..] == ext
    ensures ext == fileName || (|ext| < |fileName| && fileName[|fileName| - |ext| - 1] == '.')
  {
    var parts := Split(fileName, '.');
    SplitJoin(fileName, '.');
    JoinEndsWithLast(parts, '.');
    assert |parts| == 1 ==> Join(parts, '.') == parts[0];
    Last(parts)
  }

  /** `${uuidv4()}.${fileExt}`, with the id given: the stored name is the
      id, a `.`, and the extension, and has that same extension again. */
  function StoredName(id: string, fileName: string): (stored: string)
    ensures |stored| == |id| + 1 + |Extension(fileName)|
    ensures stored[..|id|] == id && stored[|id|] == '.'
    ensures var ext := Extension(fileName);
            && '.' in stored
            && |ext| < |stored| && stored[|stored| - |ext|..] == ext
            && Extension(stored) == ext
  {
    var ext := Extension(fileName);
    var stored := id + ['.'] + ext;
    assert stored[|id|] == '.';
    LastPieceFollowsLastSeparator(id, ext, '.');
    stored
  }

  /** The last piece ends the joined string, after a separator when there
      is more than one piece. */
  lemma {:induction false} JoinEndsWithLast(parts: seq<string>, sep: char)
    requires |parts| >= 1
    ensures var j, l := Join(parts, sep), Last(parts);
            |l| <= |j| && j[|j| - |l|..] == l
            && (|parts| > 1 ==> |l| < |j| && j[|j| - |l| - 1] == sep)
  {
    if |parts| > 1 {
      JoinEndsWithLast(parts[1..], sep);
      var tail := Join(parts[1..], sep);
      var j := parts[0] + [sep] + tail;
      assert Last(parts) == Last(parts[1..]);
      assert j[|j| - |tail|..] == tail;
    }
  }

  /** A name without `.` is its own extension. */
  lemma DotlessNameIsExtension(fileName: string)
    requires '.' !in fileName
    ensures Extension(fileName) == fileName
  {
    SplitSeparatorFree(fileName, '.');
  }

  lemma SplitSeparatorFree(b: string, sep: char)
    requires sep !in b
    ensures Split(b, sep) == [b]
  {
    SplitJoin(b, sep);
    assert Join(Split(b, sep), sep) == Split(b, sep)[0];
  }

  /** Splitting a string that has a separator after its first character
      keeps the last piece of its tail. */
  lemma {:induction false} SplitKeepsLastPiece(s: string, sep: char)
    requires |s| > 1 && sep in s[1..]
    ensures |Split(s[1..], sep)| > 1
    ensures Last(Split(s, sep)) == Last(Split(s[1..], sep))
  {
    var rest := Split(s[1..], sep);
    var parts := Split(s, sep);
    if s[0] == sep {
      assert parts == [[]] + rest;
    } else {
      assert parts == [[s[0]] + rest[0]] + rest[1..];
    }
  }

  /** Whatever precedes the last separator, the last piece is the text
      after it. */
  lemma {:induction false} LastPieceFollowsLastSeparator(a: string, b: string, sep: char)
    requires sep !in b
    ensures Last(Split(a + [sep] + b, sep)) == b
  {
    var s := a + [sep] + b;
    if a == [] {
      assert s == [sep] + b && s[1..] == b;
      SplitSeparatorFree(b, sep);
    } else {
      var s' := a[1..] + [sep] + b;
      assert s[1..] == s';
      assert s'[|a| - 1] == sep;
      SplitKeepsLastPiece(s, sep);
      LastPieceFollowsLastSeparator(a[1..], b, sep);
    }
  }

  /** A name ending in `.` has the empty extension. */
  lemma TrailingDotEmptyExtension(fileName: string)
    requires |fileName| > 0 && fileName[|fileName| - 1] == '.'
    ensures Extension(fileName) == ""
  {
    assert fileName == fileName[..|fileName| - 1] + ['.'] + [];
    LastPieceFollowsLastSeparator(fileName[..|fileName| - 1], [], '.');
  }

  /** `POST` a multipart form with a `file` field: no file is a 400 with no
      upload; a file is uploaded once under `StoredName(id, name)`, and an
      upload error is a 500 with no URL. */
  function Upload(form: Parsed<FormFile>, id: string, reply: WriteReply,
                  publicUrl: string -> string): (h: Handled)
    ensures WellFormed(h.response) && h.response.setCookie.None?
    ensures h.calls != [] <==> form.Parsed? && form.body.FileField?
    ensures h.calls != [] ==> h.calls == [UploadObject(BUCKET, StoredName(id, form.body.fileName))]
    ensures form.Parsed? && (form.body.NoField? || form.body == TextField("")) ==>
      h.response == Fail(BAD_REQUEST, NO_FILE)
    // a non-empty text field has no `name`, so reading its extension throws
    ensures form.Malformed? || (form.Parsed? && form.body.TextField? && form.body.text != "") ==>
      h.response == ServerError()
    ensures h.calls != [] ==> (h.response.status == SERVER_ERROR <==> reply.Rejected?)
    ensures h.response.body.Uploaded? <==> h.calls != [] && reply.Accepted?
    ensures h.response.body.Uploaded? ==> h.response.body.url == publicUrl(StoredName(id, form.body.fileName))
  {
    if form.Malformed? then Handled(ServerError(), [])
    else
      match form.body
      case NoField => Handled(Fail(BAD_REQUEST, NO_FILE), [])
      case TextField(text) =>
        // A non-empty text field has no `name`, so `.split` throws.
        if text == "" then Handled(Fail(BAD_REQUEST, NO_FILE), []) else Handled(ServerError(), [])
      case FileField(fileName) =>
        var name := StoredName(id, fileName);
        var call := UploadObject(BUCKET, name);
        match reply
        case Rejected => Handled(Fail(SERVER_ERROR, UPLOAD_FAILED), [call])
        case Accepted => Handled(Respond(Uploaded(publicUrl(name))), [call])
  }
}

=== FILE: wrappers.dfy ===
/** Optional values, for the source's `null`. */
module Wrappers {

  datatype Option<+T> = None | Some(value: T)
}
